=== FILE: README.md ===
# Personal finance tracker: finance pipeline and account rules

This project is a Dafny model of two parts of a small personal-finance web
application:

- `generate_finance_graphs` in `ml/finance_model.py` turns a table of
  transactions into four results:
  - a month-by-type table of totals;
  - a ranking of expense categories;
  - a monthly expense trend;
  - a linear-regression forecast of the next month's expenses.
- The request rules of `app.py`: registration, login, logout, the dashboard
  query, and the two JSON endpoints that store sections and entries.

The Python code is modelled in these terms:

- Pandas and sklearn operations become pure functions over sequences:
  - `strip`/`lower` on column names;
  - `dropna` on the date;
  - `groupby(...).sum()` with its sorted keys and skipped NaN;
  - `unstack(fill_value=0)`;
  - `sort_values(ascending=False)`;
  - an unshuffled `train_test_split(test_size=0.2)`;
  - `LinearRegression`, as the closed-form ordinary least squares in exact `real` arithmetic;
  - `mean_absolute_error`.
- The Flask routes become functions from an abstract application state to a new state and a reply. The state holds users, sections and entries as sequences, plus the optional session user.

Modules, in dependency order:

| file | module | contents |
|---|---|---|
| wrappers.dfy | `Wrappers` | `Option`, `Result` |
| text.dfy | `Text` | Python `str.strip`, ASCII `str.lower`, code-point string order |
| months.dfy | `Months` | calendar months and their `"YYYY-MM"` keys |
| sums.dfy | `Sums` | sums of reals and their algebra |
| grouping.dfy | `Grouping` | `groupby(key).sum()` over (key, amount) pairs |
| records.dfy | `Records` | loading the input frame, renaming its columns, and normalising its rows (lines 29-42) |
| aggregation.dfy | `Aggregation` | monthly table, category ranking, expense trend (lines 49-76) |
| forecast.dfy | `Forecasting` | split, least-squares fit, error, prediction (lines 78-90) |
| pipeline.dfy | `Pipeline` | the whole of `generate_finance_graphs` |
| accounts.dfy | `Accounts` | the rules of `app.py` |

Points where the code behaves in a way a reader might not expect:

- **Bad amounts.** `astype(float)` raises on a malformed amount (line 39).
  A blank amount stays NaN and the sums skip it. No amount is filtered for
  being non-positive.
- **Missing type.** A row whose type cell is empty keeps a missing type and
  drops out of the groupings. A frame with no type column fails at line 40
  (see Findings).
- **Chart errors.** The bar chart raises when no record has a type (line 51),
  and the pie chart raises when a category's expense total is negative
  (line 66). Both are modelled as errors.
- **Empty password.** The password defaults to `""` (app.py:43), and
  `generate_password_hash` raises on an empty password (app.py:53). Such a
  registration fails after both duplicate checks and stores nothing.
- **Return value.** The function returns `True` (line 106). The aggregates,
  the error and the prediction are never returned.
- **Month labels.** The month label is the `"YYYY-MM"` string of
  `to_period('M')` (line 42), not a month name.

## Model

| member | source | states |
|---|---|---|
| Text.Strip | app.py:42 | `strip()` leaves no whitespace at either end and removes only whitespace from the two ends |
| Text.StripIdempotent | app.py:42 | stripping twice is stripping once |
| Text.LowerIsLower | app.py:42 | `lower()` leaves no upper-case ASCII letter and is idempotent |
| Text.StripLower | ml/finance_model.py:34 | a normalised column name is the lower-cased infix of the name left after removing whitespace at both ends, and has no surrounding whitespace and no upper-case letter |
| Text.StripLowerIdempotent | ml/finance_model.py:34 | normalising a normalised name changes nothing |
| Text.StrLessTransitive | ml/finance_model.py:49 | the key order `groupby` sorts by is transitive |
| Text.StrLessTotal | ml/finance_model.py:49 | the key order is total and asymmetric on distinct strings |
| Months.Key | ml/finance_model.py:42 | a month label is seven characters with a dash at position 4 |
| Months.KeyOrder | ml/finance_model.py:42 | one `"YYYY-MM"` label sorts before another exactly when its month is earlier |
| Months.KeyInjective | ml/finance_model.py:42 | distinct months have distinct labels |
| Grouping.GroupSum | ml/finance_model.py:64 | one group per key, keys ascending, each group holds its key's total, and the grand total is unchanged |
| Grouping.TotalsConserve | ml/finance_model.py:49 | the totals of a set of keys covering every label add up to the total of all pairs |
| Grouping.KeyTotalAbsent | ml/finance_model.py:49 | a key no pair carries totals 0 |
| Records.Load | ml/finance_model.py:29-32 | the frame if given, else the CSV table; neither is the `MissingInput` error and nothing else |
| Records.Rename | ml/finance_model.py:34 | the rows are kept and every column name comes out stripped and lower-case |
| Records.RenameNames | ml/finance_model.py:34 | a renamed frame has a column exactly when some original name strips and lower-cases to it |
| Records.RenameIdempotent | ml/finance_model.py:34 | renaming a renamed frame changes nothing |
| Records.RowDate | ml/finance_model.py:35-36 | a row's month is its `date` cell when that column exists, else its `created_at` cell when that column exists, else `now` |
| Records.Dated | ml/finance_model.py:38 | every kept row has a date, and a row is kept iff it has one |
| Records.DatedSingle | ml/finance_model.py:38 | one row is kept alone exactly when it has a date, and dropped otherwise |
| Records.DatedConcat | ml/finance_model.py:38 | dropping undated rows from two blocks of rows is dropping them from each block, so no row is duplicated, lost or reordered |
| Records.RowKind | ml/finance_model.py:40 | lower-case; "expense" for every row without a type column; with one, present iff the cell is, and then the lower-cased cell |
| Records.RowCategory | ml/finance_model.py:41 | a row's category is missing only when a category or title column exists; with neither it is "Other" |
| Records.Normalise | ml/finance_model.py:35-42 | succeeds iff the amount column exists and every dated amount parses; names the error otherwise; yields one record per dated row |
| Records.NormalisedKinds | ml/finance_model.py:40 | every normalised type is lower-case, and all are "expense" without a type column |
| Records.NormaliseKeepsDated | ml/finance_model.py:38-42 | every dated row yields a record and every record comes from a dated row |
| Records.ResolutionOrder | ml/finance_model.py:35-41 | the month comes from date, else created_at, else now; the category comes from category, else title, else "Other" |
| Records.ExpenseSpellings | ml/finance_model.py:40 | "Expense" and "EXPENSE" are read as "expense" |
| Records.NormaliseAsWritten | ml/finance_model.py:40 | as written, success requires a type column; with one, it agrees with the corrected normalisation |
| Records.TypeDefaultDiverges | ml/finance_model.py:40 | without a type column, every frame the corrected normalisation accepts as all-expense fails as written |
| Records.TypeDefaultWitness | ml/finance_model.py:40 | a date-and-amount frame is accepted when corrected, and an error as written |
| Records.DateAmountNormalised | ml/finance_model.py:35-42 | the corrected normalisation reads that frame as one expense of 250.0 in "Other" |
| Aggregation.Where | ml/finance_model.py:62 | a mask keeps exactly the records with that label |
| Aggregation.Expenses | ml/finance_model.py:62 | the expense rows are exactly the records whose type is "expense" |
| Aggregation.ProjectKeyTotal | ml/finance_model.py:49 | the group total of a label is the total amount of the records with that label |
| Aggregation.ProjectTotal | ml/finance_model.py:49 | the groups hold the amounts of exactly the labelled records |
| Aggregation.ProjectKeys | ml/finance_model.py:49 | the group labels are exactly the labels the records carry |
| Aggregation.MonthlyTable | ml/finance_model.py:49 | one row per month with a typed record and one column per type, both ascending, each row one cell per type |
| Aggregation.TableCell | ml/finance_model.py:49 | each cell is the total of the records of that month and type |
| Aggregation.TableZeroFill | ml/finance_model.py:49 | a month and type no record combines get 0 |
| Aggregation.TableColumnTotal | ml/finance_model.py:38-49 | a type's column adds up to the total of all records of that type |
| Aggregation.CategoryRanking | ml/finance_model.py:62-64 | absent iff no record is an expense; otherwise the totals do not increase and no category repeats |
| Aggregation.SortDescending | ml/finance_model.py:64 | the sorted entries are a permutation of the input whose values never increase |
| Aggregation.SortSpec | ml/finance_model.py:64 | the descending sort is a permutation whose values do not increase |
| Aggregation.RankingValues | ml/finance_model.py:64 | each ranked total is the sum of that category's expenses |
| Aggregation.RankingCategories | ml/finance_model.py:62-64 | the ranked categories are exactly the categories of the expense records |
| Aggregation.RankingTotal | ml/finance_model.py:64 | the ranked totals add up to the total of the categorised expenses |
| Aggregation.ExpenseTrend | ml/finance_model.py:75-76 | points are numbered 0 to n-1, months strictly ascend, and each total is that month's expense total |
| Aggregation.TrendMonthsAreExpenseMonths | ml/finance_model.py:75 | every trend month is the month of some expense record |
| Aggregation.ExpenseMonthsInTrend | ml/finance_model.py:75 | every month with an expense record has a trend point |
| Aggregation.TrendEmptyIff | ml/finance_model.py:74-75 | the trend is empty exactly when no record is an expense |
| Aggregation.TrendTotal | ml/finance_model.py:75 | the trend's totals add up to the total of all expense records |
| Aggregation.TrendChronological | ml/finance_model.py:42 | an earlier trend point is an earlier calendar month |
| Forecasting.Split | ml/finance_model.py:82 | train followed by test is the series; the test part has ⌈n/5⌉ points; for n ≥ 3 train has at least 2 points and test at least 1 |
| Forecasting.IndicesSpread | ml/finance_model.py:79-84 | two or more month indices make the least-squares denominator positive |
| Forecasting.FitPoints | ml/finance_model.py:84 | the fitted slope and intercept satisfy both normal equations of the training points |
| Forecasting.Fit | ml/finance_model.py:84 | on the month indices, the fitted line's residuals sum to 0 and are orthogonal to the indices |
| Forecasting.ClosedForm | ml/finance_model.py:84 | the closed-form slope and intercept satisfy both normal equations |
| Forecasting.FitNormalEquations | ml/finance_model.py:84 | the fitted line's residuals sum to 0 and are orthogonal to the indices |
| Forecasting.FitIsLeastSquares | ml/finance_model.py:84 | no line has a smaller squared error on the training points than the fitted one |
| Forecasting.SquaredErrorZero | ml/finance_model.py:84 | the squared error is non-negative, and 0 iff the line passes through every point |
| Forecasting.FitExactOnLine | ml/finance_model.py:84 | on collinear training data the fit is that line and reproduces every point |
| Forecasting.MeanAbsoluteError | ml/finance_model.py:86 | the error times the number of points is the sum of the absolute errors; it is non-negative, and 0 iff predictions equal actual values |
| Forecasting.ForecastSeries | ml/finance_model.py:78-90 | a forecast iff there are more than 2 points; its line is fitted on the training prefix; prediction is the unclamped line at index n; error 0 iff the line hits every test point |
| Pipeline.RankingIffTrend | ml/finance_model.py:63-74 | the pie and the trend are skipped together, exactly when there is no expense |
| Pipeline.BarsEmptyIff | ml/finance_model.py:49-51 | the monthly table has no column exactly when no record has a type |
| Pipeline.NegativeSliceIff | ml/finance_model.py:62-66 | the ranking holds a negative total exactly when some expense category's records sum below 0 |
| Pipeline.NoNegativeSlice | ml/finance_model.py:64-66 | with no negative amount, no ranked total is negative |
| Pipeline.Draw | ml/finance_model.py:49-90 | the bar-chart error iff no record has a type; else the pie error iff some expense category sums below 0; otherwise the table, ranking, expense trend, and the forecast of that trend, with the pie iff the trend is non-empty, a forecast iff more than 2 points, predicting at index n, and the trend conserving the expense total |
| Pipeline.DrawSucceeds | ml/finance_model.py:49-90 | a non-empty list of typed records with non-negative amounts is drawn without error |
| Pipeline.Analyse | ml/finance_model.py:29-90 | no input is `MissingInput`; a normalising error is returned as is; otherwise the drawing of the normalised records |
| Pipeline.GenerateFinanceGraphs | ml/finance_model.py:29-106 | `True` whenever the analysis succeeds, the same error otherwise; no input at all is `MissingInput` |
| Pipeline.ChartsDrawn | ml/finance_model.py:29-106 | a table that normalises to non-empty typed records with non-negative amounts yields `True` |
| Pipeline.GenerateAsWritten | ml/finance_model.py:40 | as written, success needs a type column; with one it matches the corrected entry point |
| Pipeline.GenerateDiverges | ml/finance_model.py:40 | a date-and-amount frame succeeds when corrected and fails as written |
| Accounts.NormaliseEmail | app.py:42 | a normalised email is the lower-cased input with the surrounding whitespace removed, and has no surrounding whitespace and no upper-case letter |
| Accounts.EmailIdempotent | app.py:42 | normalising an email twice is normalising it once |
| Accounts.FindByEmail | app.py:48 | finds a user with the email, or reports that none has it |
| Accounts.FindUnique | app.py:65 | with unique emails, the user found is the one with that email |
| Accounts.Register | app.py:43-62 | taken email first, then taken username, then an empty password failing in the hashing, else exactly one user with the hashed password added and signed in; refusals and the failure change nothing |
| Accounts.Login | app.py:64-70 | the store never changes; failure changes nothing; success signs in a stored user whose password checks |
| Accounts.LoginIff | app.py:64-70 | in a valid store, login succeeds iff a user with the email exists and the password checks |
| Accounts.Auth | app.py:40-72 | a POST with formType register or login dispatches; anything else shows the form and changes nothing |
| Accounts.RegisterKeepsValid | app.py:48-62 | registering never stores an email or username twice |
| Accounts.RegisterThenLogin | app.py:53-68 | after registering, logging in with the same email and password signs the new user in |
| Accounts.SectionsOf | app.py:84 | the user's sections are exactly the stored sections under that email |
| Accounts.SectionsOfConcat | app.py:84 | querying two blocks of sections is querying each block, so none is duplicated, lost or reordered |
| Accounts.EntriesIn | app.py:87 | a section's entries are exactly the stored entries naming its id |
| Accounts.EntriesInConcat | app.py:87 | querying two blocks of entries is querying each block, so none is duplicated, lost or reordered |
| Accounts.Dashboard | app.py:78-89 | nothing without a session user; otherwise exactly the user's sections, each with exactly the entries naming its id |
| Accounts.SaveSection | app.py:112-132 | 401 without a session user, 400 for a blank name; otherwise exactly one section stored under the user's email and returned with no entries |
| Accounts.Acceptable | app.py:147 | an entry is accepted iff the section id is present and non-empty, the title is non-empty and the amount positive |
| Accounts.SaveEntry | app.py:138-161 | 401 without a session user, failure on an unreadable amount, 400 unless section id, title and positive amount; otherwise exactly one entry stored; unchanged unless stored |
| Accounts.Logout | app.py:167 | clears the session user and keeps the store |
| Accounts.LoggedOutGuards | app.py:78-79 | after logout the dashboard is refused and both JSON endpoints answer 401 without storing |
| Accounts.SavedSectionShown | app.py:84-87 | a section just saved is the last one on its owner's dashboard |
| Accounts.SavedEntryShown | app.py:84-87 | an entry saved into one of the user's sections appears under that section |

## Left out

- Chart rendering, file writes, `os.makedirs` and the prints (ml/finance_model.py:44, 50-57, 65-71, 92-105). Only the two ways a chart can fail are modelled: a table with no numeric column (line 51) and a negative slice (line 66). `Pipeline.Draw` returns what each chart is drawn from.
- Pipeline.Draw: a pie whose totals are all zero is drawn; what matplotlib does with it depends on its version. The trend and forecast chart (lines 92-105) draws from data already checked, so it is not modelled as failing.
- Amounts and all their sums are exact reals, not IEEE doubles. So the equalities of Aggregation.TableColumnTotal, Aggregation.RankingTotal, Aggregation.TrendTotal and Grouping.TotalsConserve hold in the program only up to rounding.
- The summary after `return True` and the `__main__` driver (ml/finance_model.py:109-133). The summary is unreachable; the driver is I/O.
- CSV reading and date parsing (ml/finance_model.py:32, 36). Cells arrive parsed, dates as months, and a date that failed to parse is a missing date.
- A `date` column that holds text rather than datetimes, on which `.dt` would fail at line 42. It is not modelled.
- The clock: `datetime.utcnow()` is the parameter `now`, and timestamps in `app.py` are parameters.
- Forecasting.ForecastSeries: uses exact real arithmetic, not IEEE floating point. sklearn's numerical rounding is not modelled.
- Aggregation.SortDescending: ties keep their grouped (ascending key) order, while pandas' quicksort leaves the order of equal totals unspecified.
- Text.Lower: lower-cases ASCII letters only, not full Unicode case mapping.
- Records.Rename: two headers that normalise to the same name are not modelled as duplicate pandas columns.
- Cells of types other than text, numbers and missing values (a number in the type column, for instance).
- Records.Normalise: a type column that is blank in every row is read by pandas as a float column, and `.str` at line 40 then raises. The model normalises such a frame, and the pipeline fails later with `NoNumericData`, so the call still fails but with another error.
- Flask routing, redirects, templates, sessions, the CSS version lookup and `add_expense` (app.py:1-35, 98-106, 171-179). These are web plumbing.
- The MongoDB calls are modelled as operations on sequences. Database ids are parameters.
- Accounts.RegisterKeepsValid: requests are modelled one at a time. The threaded development server (app.py:179) can run two registrations at once. No unique index exists, and the `find_one` checks (app.py:48, 50) and the `insert_one` (app.py:55) are not atomic. So two concurrent registrations with the same email can both be stored, and then unique emails, and the iff of Accounts.LoginIff, do not hold.
- Accounts.Register: the password hash is the parameter `hash`, and bcrypt's random salt is not modelled.
- Accounts.Login: the password check is the parameter `check`.
- A JSON body that is not an object, and a JSON `name` or `title` that is not a string, both of which raise in the route.
- Accounts.SaveEntry: the section id is an optional string. A JSON number as `section_id` (app.py:143) is not modelled: `5` would be stored as a number, and `0` is rejected as falsy at line 147.
- Accounts.SaveEntry: an amount of NaN or infinity is not modelled. `float()` accepts both, and NaN would pass the `amount <= 0` test.
- Accounts.SaveEntry: does not check that the section id names a section the user owns, because the route does not check it either.

## Findings

| source | as written | input that shows it | evidently intended | confidence | as-written member | corrected member |
|---|---|---|---|---|---|---|
| ml/finance_model.py:40 | with no `type` column, `df.get` returns the plain string `'expense'`, and `.str` on a string raises `AttributeError` | a frame with columns `date` and `amount` and one row (January 2024, 250.0) | every row of a frame without a type column is an expense | high; not executed | Records.NormaliseAsWritten, Records.TypeDefaultWitness, Pipeline.GenerateAsWritten | Records.Normalise, Records.TypeDefaultDiverges, Records.DateAmountNormalised, Pipeline.GenerateDiverges |

=== FILE: accounts.dfy ===
/**
 * The account and request rules of app.py over an abstract store: users,
 * sections and entries as sequences, and the session's user.
 *
 * Password hashing and checking are parameters (`hash`, `check`), as are the
 * ids the database assigns and the timestamps of new documents.
 */
module Accounts {
  import opened Wrappers
  import opened Text

  datatype User = User(username: string, email: string, passwordHash: string)

  /** `session["user"]`: the email and username of the signed-in user. */
  datatype SessionUser = SessionUser(email: string, username: string)

  datatype Section = Section(id: string, email: string, name: string, createdAt: int)

  datatype EntryRecord = EntryRecord(id: string, email: string, sectionId: string, title: string, amount: real, createdAt: int)

  datatype Store = Store(users: seq<User>, sections: seq<Section>, entries: seq<EntryRecord>)

  datatype App = App(store: Store, session: Option<SessionUser>)

  /** The result of a request: the application state after it, and the reply. */
  datatype Outcome<R> = Outcome(app: App, reply: R)

  /** A form or JSON field, with "" for a field that is not sent (`.get(name, "")`). */
  function Field(v: Option<string>): string {
    v.GetOr("")
  }

  // ---------------------------------------------------------------------------
  // Invariants of the store
  // ---------------------------------------------------------------------------

  predicate UniqueEmails(users: seq<User>) {
    forall i, j :: 0 <= i < j < |users| ==> users[i].email != users[j].email
  }

  predicate UniqueUsernames(users: seq<User>) {
    forall i, j :: 0 <= i < j < |users| ==> users[i].username != users[j].username
  }

  /**
   * What the routes guarantee of the documents they insert: one user per email
   * and per username, emails stored normalised, section names and entry titles
   * stripped and non-empty, entries with a section id and a positive amount.
   */
  predicate Valid(s: Store) {
    && UniqueEmails(s.users)
    && UniqueUsernames(s.users)
    && (forall u :: u in s.users ==> Trimmed(u.email) && IsLower(u.email) && Trimmed(u.username))
    && (forall c :: c in s.sections ==> c.name != "" && Trimmed(c.name))
    && (forall e :: e in s.entries ==> e.sectionId != "" && e.title != "" && Trimmed(e.title) && e.amount > 0.0)
  }

  /** The session's user, if any, is one of the stored users. */
  predicate SessionKnown(app: App) {
    app.session.Some? ==> exists u :: u in app.store.users && app.session.value == SessionUser(u.email, u.username)
  }

  // ---------------------------------------------------------------------------
  // Authentication (app.py:40-72)
  // ---------------------------------------------------------------------------

  /** Line 42: emails are compared stripped and lower-cased. */
  function NormaliseEmail(email: string): (e: string)
    ensures Trimmed(e) && IsLower(e)
    ensures |e| <= |email|
    ensures exists i :: LowerOfFramed(email, i, e)
  {
    StripLower(email)
  }

  /** A normalised email normalises to itself. */
  lemma EmailIdempotent(email: string)
    ensures NormaliseEmail(NormaliseEmail(email)) == NormaliseEmail(email)
  {
    StripLowerIdempotent(email);
  }

  /** `users_collection.find_one({"email": email})`: the first user with that email. */
  function FindByEmail(users: seq<User>, email: string): (u: Option<User>)
    ensures u.Some? ==> u.value in users && u.value.email == email
    ensures u.None? ==> forall v :: v in users ==> v.email != email
  {
    if |users| == 0 then None
    else if users[0].email == email then Some(users[0])
    else FindByEmail(users[1..], email)
  }

  /** With unique emails, the user found is the only one with that email. */
  lemma {:induction false} FindUnique(users: seq<User>, u: User)
    requires UniqueEmails(users) && u in users
    ensures FindByEmail(users, u.email) == Some(u)
  {
    if users[0] != u {
      assert users[0].email != u.email by {
        var j :| 0 <= j < |users| && users[j] == u;
      }
      assert UniqueEmails(users[1..]) by {
        forall i, j | 0 <= i < j < |users[1..]| ensures users[1..][i].email != users[1..][j].email {
          assert users[1..][i] == users[i + 1] && users[1..][j] == users[j + 1];
        }
      }
      FindUnique(users[1..], u);
    }
  }

  /** The fields of a POST to /auth; `None` is a field the form does not send. */
  datatype AuthForm = AuthForm(formType: Option<string>, email: Option<string>, password: Option<string>, username: Option<string>)

  datatype AuthRequest = AuthGet | AuthPost(form: AuthForm)

  datatype AuthReply =
    | UserExists          // "User already exists. Please login."
    | UsernameTaken       // "Username already taken."
    | EmptyPassword       // `generate_password_hash("")` raises: a server error, nothing stored
    | Registered          // redirect to the dashboard after registering
    | LoggedIn            // redirect to the dashboard after logging in
    | InvalidCredentials  // "Invalid email or password"
    | ShowForm            // the sign-in page

  /**
   * Lines 46-62: a taken email is refused first, then a taken username; an
   * empty password (the default at line 43) then makes the hashing at line 53
   * raise before anything is stored; otherwise exactly one user is added, with
   * the hashed password, and becomes the session's user.
   */
  function Register(app: App, form: AuthForm, hash: string -> string): (o: Outcome<AuthReply>)
    ensures var email, users := NormaliseEmail(Field(form.email)), app.store.users;
      o.reply == UserExists <==> exists u :: u in users && u.email == email
    ensures var email, username, users := NormaliseEmail(Field(form.email)), Strip(Field(form.username)), app.store.users;
      o.reply == UsernameTaken <==>
        (forall u :: u in users ==> u.email != email) && exists u :: u in users && u.username == username
    ensures var email, username, users := NormaliseEmail(Field(form.email)), Strip(Field(form.username)), app.store.users;
      o.reply == EmptyPassword <==>
        && (forall u :: u in users ==> u.email != email && u.username != username)
        && Field(form.password) == ""
    ensures o.reply == UserExists || o.reply == UsernameTaken || o.reply == EmptyPassword || o.reply == Registered
    ensures o.reply != Registered ==> o.app == app
    ensures var email, username := NormaliseEmail(Field(form.email)), Strip(Field(form.username));
      o.reply == Registered ==>
        && o.app.store == app.store.(users := app.store.users + [User(username, email, hash(Field(form.password)))])
        && o.app.session == Some(SessionUser(email, username))
  {
    var email := NormaliseEmail(Field(form.email));
    var username := Strip(Field(form.username));
    var users := app.store.users;
    if exists u :: u in users && u.email == email then Outcome(app, UserExists)
    else if exists u :: u in users && u.username == username then Outcome(app, UsernameTaken)
    else if Field(form.password) == "" then Outcome(app, EmptyPassword)
    else
      var user := User(username, email, hash(Field(form.password)));
      Outcome(App(app.store.(users := users + [user]), Some(SessionUser(email, username))), Registered)
  }

  /**
   * Lines 64-70: the first user with the normalised email is signed in when the
   * password checks against their hash; otherwise nothing changes.
   */
  function Login(app: App, form: AuthForm, check: (string, string) -> bool): (o: Outcome<AuthReply>)
    ensures o.reply == LoggedIn || o.reply == InvalidCredentials
    ensures o.app.store == app.store
    ensures o.reply == InvalidCredentials ==> o.app == app
    ensures var email := NormaliseEmail(Field(form.email));
      o.reply == LoggedIn ==>
        exists u :: (u in app.store.users && u.email == email
          && check(u.passwordHash, Field(form.password))
          && o.app.session == Some(SessionUser(u.email, u.username)))
  {
    var email := NormaliseEmail(Field(form.email));
    match FindByEmail(app.store.users, email)
    case Some(u) =>
      if check(u.passwordHash, Field(form.password)) then
        Outcome(App(app.store, Some(SessionUser(u.email, u.username))), LoggedIn)
      else Outcome(app, InvalidCredentials)
    case None => Outcome(app, InvalidCredentials)
  }

  /**
   * In a valid store, login succeeds exactly when a user with the normalised
   * email exists and the password checks against their hash.
   */
  lemma LoginIff(app: App, form: AuthForm, check: (string, string) -> bool)
    requires Valid(app.store)
    ensures var email := NormaliseEmail(Field(form.email));
      Login(app, form, check).reply == LoggedIn <==>
        exists u :: u in app.store.users && u.email == email && check(u.passwordHash, Field(form.password))
  {
    var email := NormaliseEmail(Field(form.email));
    if u :| u in app.store.users && u.email == email && check(u.passwordHash, Field(form.password)) {
      FindUnique(app.store.users, u);
    }
  }

  /** Lines 40-72: a POST dispatches on `formType`; anything else shows the form. */
  function Auth(app: App, request: AuthRequest, hash: string -> string, check: (string, string) -> bool): (o: Outcome<AuthReply>)
    ensures o.reply == ShowForm <==> !(request.AuthPost? && request.form.formType in {Some("register"), Some("login")})
    ensures o.reply == ShowForm ==> o.app == app
    ensures request.AuthPost? && request.form.formType == Some("register") ==> o == Register(app, request.form, hash)
    ensures request.AuthPost? && request.form.formType == Some("login") ==> o == Login(app, request.form, check)
  {
    match request
    case AuthGet => Outcome(app, ShowForm)
    case AuthPost(form) =>
      if form.formType == Some("register") then Register(app, form, hash)
      else if form.formType == Some("login") then Login(app, form, check)
      else Outcome(app, ShowForm)
  }

  /** Appending a user whose email and username are both new keeps both unique. */
  lemma AppendUserUnique(users: seq<User>, u: User)
    requires UniqueEmails(users) && UniqueUsernames(users)
    requires forall v :: v in users ==> v.email != u.email && v.username != u.username
    ensures UniqueEmails(users + [u]) && UniqueUsernames(users + [u])
  {
    var all := users + [u];
    forall i, j | 0 <= i < j < |all| ensures all[i].email != all[j].email && all[i].username != all[j].username {
      if j == |users| {
        assert all[i] in users;
      } else {
        assert all[i] == users[i] && all[j] == users[j];
      }
    }
  }

  /** Registering keeps the store valid: no email or username is stored twice. */
  lemma RegisterKeepsValid(app: App, form: AuthForm, hash: string -> string)
    requires Valid(app.store)
    ensures Valid(Register(app, form, hash).app.store)
    ensures SessionKnown(Register(app, form, hash).app) || Register(app, form, hash).app == app
  {
    var o := Register(app, form, hash);
    if o.reply == Registered {
      var users := o.app.store.users;
      var n := |app.store.users|;
      AppendUserUnique(app.store.users, users[n]);
      assert users[n] in users;
    }
  }

  /** Logging in keeps the store as it was and signs in a stored user. */
  lemma LoginKeepsValid(app: App, form: AuthForm, check: (string, string) -> bool)
    requires Valid(app.store) && SessionKnown(app)
    ensures Valid(Login(app, form, check).app.store) && SessionKnown(Login(app, form, check).app)
  {
  }

  /**
   * Registering and then logging in with the same email and password signs
   * the new user in again, provided the password checks against its own hash.
   */
  lemma RegisterThenLogin(app: App, form: AuthForm, hash: string -> string, check: (string, string) -> bool)
    requires Valid(app.store)
    requires Register(app, form, hash).reply == Registered
    requires check(hash(Field(form.password)), Field(form.password))
    ensures var after := Register(app, form, hash).app;
      Login(after, form, check) == Outcome(after, LoggedIn)
  {
    var after := Register(app, form, hash).app;
    RegisterKeepsValid(app, form, hash);
    var user := after.store.users[|after.store.users| - 1];
    FindUnique(after.store.users, user);
  }

  // ---------------------------------------------------------------------------
  // Dashboard (app.py:77-94)
  // ---------------------------------------------------------------------------

  /** A section as the dashboard shows it, with its entries. */
  datatype SectionView = SectionView(section: Section, entries: seq<EntryRecord>)

  /** `sections_collection.find({"email": email})`, in insertion order. */
  function SectionsOf(sections: seq<Section>, email: string): (own: seq<Section>)
    ensures forall s :: s in own <==> s in sections && s.email == email
  {
    if |sections| == 0 then []
    else
      var last := sections[|sections| - 1];
      assert sections == sections[..|sections| - 1] + [last];
      SectionsOf(sections[..|sections| - 1], email) + (if last.email == email then [last] else [])
  }

  /** The query over a concatenation queries each part: no section is dropped, duplicated or moved. */
  lemma {:induction false} SectionsOfConcat(a: seq<Section>, b: seq<Section>, email: string)
    ensures SectionsOf(a + b, email) == SectionsOf(a, email) + SectionsOf(b, email)
  {
    if |b| == 0 {
      assert a + b == a;
    } else {
      var init := b[..|b| - 1];
      SectionsOfConcat(a, init, email);
      assert (a + b)[..|a + b| - 1] == a + init;
      assert (a + b)[|a + b| - 1] == b[|b| - 1];
    }
  }

  /** `entries_collection.find({"section_id": id})`, in insertion order. */
  function EntriesIn(entries: seq<EntryRecord>, id: string): (es: seq<EntryRecord>)
    ensures forall e :: e in es <==> e in entries && e.sectionId == id
  {
    if |entries| == 0 then []
    else
      var last := entries[|entries| - 1];
      assert entries == entries[..|entries| - 1] + [last];
      EntriesIn(entries[..|entries| - 1], id) + (if last.sectionId == id then [last] else [])
  }

  /** The query over a concatenation queries each part: no entry is dropped, duplicated or moved. */
  lemma {:induction false} EntriesInConcat(a: seq<EntryRecord>, b: seq<EntryRecord>, id: string)
    ensures EntriesIn(a + b, id) == EntriesIn(a, id) + EntriesIn(b, id)
  {
    if |b| == 0 {
      assert a + b == a;
    } else {
      var init := b[..|b| - 1];
      EntriesInConcat(a, init, id);
      assert (a + b)[..|a + b| - 1] == a + init;
      assert (a + b)[|a + b| - 1] == b[|b| - 1];
    }
  }

  /**
   * Lines 78-89: nothing without a session user; otherwise that user's
   * sections, each with the entries that name its id. Entries are matched by
   * section id alone, whoever stored them.
   */
  function Dashboard(app: App): (v: Option<seq<SectionView>>)
    ensures v.None? <==> app.session.None?
    ensures v.Some? ==> var own := SectionsOf(app.store.sections, app.session.value.email);
      |v.value| == |own| && forall i :: 0 <= i < |own| ==> v.value[i].section == own[i]
    ensures v.Some? ==> forall i :: 0 <= i < |v.value| ==>
      v.value[i].entries == EntriesIn(app.store.entries, v.value[i].section.id)
  {
    match app.session
    case None => None
    case Some(user) =>
      var own := SectionsOf(app.store.sections, user.email);
      Some(seq(|own|, i requires 0 <= i < |own| => SectionView(own[i], EntriesIn(app.store.entries, own[i].id))))
  }

  // ---------------------------------------------------------------------------
  // JSON endpoints (app.py:110-161)
  // ---------------------------------------------------------------------------

  /** The reply of a JSON endpoint. */
  datatype ApiReply<T> =
    | NotLoggedIn            // 401 "Not logged in"
    | Rejected(message: string)  // 400
    | AmountUnreadable       // `float()` raises: the request fails with 500
    | Created(item: T)       // 201 with the stored document

  function Status<T>(r: ApiReply<T>): int {
    match r
    case NotLoggedIn => 401
    case Rejected(_) => 400
    case AmountUnreadable => 500
    case Created(_) => 201
  }

  /**
   * Lines 112-132: without a session user, 401; a name that is empty once
   * stripped, 400; otherwise exactly one section is stored, under the user's
   * email, and returned with no entries.
   */
  function SaveSection(app: App, name: Option<string>, id: string, now: int): (o: Outcome<ApiReply<SectionView>>)
    ensures app.session.None? ==> o == Outcome(app, NotLoggedIn)
    ensures o.reply.Created? <==> app.session.Some? && Strip(Field(name)) != ""
    ensures app.session.Some? && !o.reply.Created? ==> o == Outcome(app, Rejected("Section name required"))
    ensures o.reply.Created? ==>
      && o.reply.item == SectionView(Section(id, app.session.value.email, Strip(Field(name)), now), [])
      && o.app == App(app.store.(sections := app.store.sections + [o.reply.item.section]), app.session)
  {
    match app.session
    case None => Outcome(app, NotLoggedIn)
    case Some(user) =>
      var sectionName := Strip(Field(name));
      if sectionName == "" then Outcome(app, Rejected("Section name required"))
      else
        var section := Section(id, user.email, sectionName, now);
        Outcome(App(app.store.(sections := app.store.sections + [section]), app.session), Created(SectionView(section, [])))
  }

  /** The amount field of a new entry: absent (0), a number, or a value `float()` rejects. */
  datatype AmountField = NoAmount | Numeric(x: real) | Unreadable

  /** `float(data.get("amount", 0))` for an amount it can read. */
  function Amount(a: AmountField): real {
    if a.Numeric? then a.x else 0.0
  }

  /** The JSON body of /save-entry. */
  datatype EntryPayload = EntryPayload(sectionId: Option<string>, title: Option<string>, amount: AmountField)

  /** Python truthiness of an optional string: present and non-empty. */
  predicate Truthy(s: Option<string>) {
    s.Some? && s.value != ""
  }

  /**
   * Line 147 as written, `not section_id or not title or amount <= 0`
   * rejecting: a section id, a title and a positive amount are required.
   */
  predicate Acceptable(sectionId: Option<string>, title: string, amount: real): (ok: bool)
    ensures ok <==> sectionId.Some? && |sectionId.value| > 0 && |title| > 0 && amount > 0.0
  {
    !(!Truthy(sectionId) || !Truthy(Some(title)) || amount <= 0.0)
  }

  /**
   * Lines 138-161: without a session user, 401; an amount `float()` cannot
   * read fails the request before any validation; a missing or empty section
   * id, an empty stripped title or a non-positive amount is rejected;
   * otherwise exactly one entry is stored, under the user's email. The
   * section id is not checked against the stored sections.
   */
  function SaveEntry(app: App, p: EntryPayload, id: string, now: int): (o: Outcome<ApiReply<EntryRecord>>)
    ensures app.session.None? ==> o == Outcome(app, NotLoggedIn)
    ensures app.session.Some? && p.amount.Unreadable? ==> o == Outcome(app, AmountUnreadable)
    ensures o.reply.Created? <==>
      (app.session.Some? && !p.amount.Unreadable? && Acceptable(p.sectionId, Strip(Field(p.title)), Amount(p.amount)))
    ensures !o.reply.Created? ==> o.app == app
    ensures o.reply.Created? ==>
      && o.reply.item == EntryRecord(id, app.session.value.email, p.sectionId.value, Strip(Field(p.title)), p.amount.x, now)
      && o.app == App(app.store.(entries := app.store.entries + [o.reply.item]), app.session)
  {
    match app.session
    case None => Outcome(app, NotLoggedIn)
    case Some(user) =>
      if p.amount.Unreadable? then Outcome(app, AmountUnreadable)
      else
        var title := Strip(Field(p.title));
        var amount := Amount(p.amount);
        if !Acceptable(p.sectionId, title, amount) then Outcome(app, Rejected("Invalid data"))
        else
          var entry := EntryRecord(id, user.email, p.sectionId.value, title, amount, now);
          Outcome(App(app.store.(entries := app.store.entries + [entry]), app.session), Created(entry))
  }

  /** Line 167: the session's user is forgotten and nothing else changes. */
  function Logout(app: App): (after: App)
    ensures after.session.None? && after.store == app.store
  {
    App(app.store, None)
  }

  // ---------------------------------------------------------------------------
  // Properties across requests
  // ---------------------------------------------------------------------------

  /** Every request keeps the store valid and the session's user a stored user. */
  lemma SaveSectionKeepsValid(app: App, name: Option<string>, id: string, now: int)
    requires Valid(app.store) && SessionKnown(app)
    ensures Valid(SaveSection(app, name, id, now).app.store) && SessionKnown(SaveSection(app, name, id, now).app)
  {
  }

  lemma SaveEntryKeepsValid(app: App, p: EntryPayload, id: string, now: int)
    requires Valid(app.store) && SessionKnown(app)
    ensures Valid(SaveEntry(app, p, id, now).app.store) && SessionKnown(SaveEntry(app, p, id, now).app)
  {
  }

  /** After logging out, the dashboard is refused and the JSON endpoints answer 401 without storing anything. */
  lemma LoggedOutGuards(app: App, name: Option<string>, p: EntryPayload, id: string, now: int)
    ensures var out := Logout(app);
      && Dashboard(out).None?
      && SaveSection(out, name, id, now) == Outcome(out, NotLoggedIn)
      && SaveEntry(out, p, id, now) == Outcome(out, NotLoggedIn)
      && Status(SaveSection(out, name, id, now).reply) == 401
  {
  }

  lemma SectionsOfAppend(sections: seq<Section>, s: Section, email: string)
    ensures SectionsOf(sections + [s], email) == SectionsOf(sections, email) + (if s.email == email then [s] else [])
  {
    assert (sections + [s])[..|sections|] == sections;
  }

  /** Appending a section of the signed-in user puts it last on the dashboard. */
  lemma AppendedSectionLast(store: Store, user: SessionUser, s: Section)
    requires s.email == user.email
    ensures var v := Dashboard(App(store.(sections := store.sections + [s]), Some(user))).value;
      |v| > 0 && v[|v| - 1].section == s
  {
    SectionsOfAppend(store.sections, s, user.email);
  }

  /** A section just saved is the last one on its owner's dashboard. */
  lemma SavedSectionShown(app: App, name: Option<string>, id: string, now: int)
    requires SaveSection(app, name, id, now).reply.Created?
    ensures var o := SaveSection(app, name, id, now);
      var v := Dashboard(o.app).value;
      |v| > 0 && v[|v| - 1].section == o.reply.item.section
  {
    var o := SaveSection(app, name, id, now);
    AppendedSectionLast(app.store, app.session.value, o.reply.item.section);
  }

  /** An entry saved into one of the user's sections appears under that section on the dashboard. */
  lemma SavedEntryShown(app: App, p: EntryPayload, id: string, now: int, s: Section)
    requires SaveEntry(app, p, id, now).reply.Created?
    requires s in app.store.sections && s.email == app.session.value.email && s.id == p.sectionId.value
    ensures var o := SaveEntry(app, p, id, now);
      exists i :: 0 <= i < |Dashboard(o.app).value| && Dashboard(o.app).value[i].section == s
        && o.reply.item in Dashboard(o.app).value[i].entries
  {
    var o := SaveEntry(app, p, id, now);
    var own := SectionsOf(o.app.store.sections, app.session.value.email);
    assert s in own;
    var i :| 0 <= i < |own| && own[i] == s;
    var v := Dashboard(o.app).value;
    assert v[i].section == s;
    assert o.reply.item in EntriesIn(o.app.store.entries, s.id);
  }
}

=== FILE: aggregation.dfy ===
/**
 * The three aggregations of ml/finance_model.py over the normalised records:
 * the month-by-type table (line 49), the expense ranking by category (lines
 * 62-64) and the monthly expense trend (lines 75-76).
 *
 * Each is built from pandas' `groupby(...)['amount'].sum()` (`GroupSum`) on
 * the records' labels, and each is tied back to one reference: `SumOf`, the
 * plain sum of the amounts of a filtered list of records.
 */
module Aggregation {
  import opened Wrappers
  import opened Text
  import opened Sums
  import opened Months
  import opened Grouping
  import opened Records

  // ---------------------------------------------------------------------------
  // Labels, filters and the reference sum
  // ---------------------------------------------------------------------------

  /** The columns the pipeline groups by. */
  datatype Column = MonthColumn | KindColumn | CategoryColumn

  /**
   * A record's label in a column; `None` is a missing value, which `groupby`
   * drops. The month label is the "YYYY-MM" string of line 42.
   */
  function Label(r: Record, c: Column): Option<string> {
    match c
    case MonthColumn => Some(Key(r.month))
    case KindColumn => r.kind
    case CategoryColumn => r.category
  }

  /** What a record adds to a sum: its amount, or nothing for NaN, which `sum()` skips. */
  function AmountOf(r: Record): real {
    r.amount.GetOr(0.0)
  }

  /** The total amount of the records. */
  function SumOf(rs: seq<Record>): real {
    if |rs| == 0 then 0.0 else SumOf(rs[..|rs| - 1]) + AmountOf(rs[|rs| - 1])
  }

  /** Records whose amounts are never negative have a non-negative total. */
  lemma {:induction false} SumOfNonNegative(rs: seq<Record>)
    requires forall r :: r in rs ==> AmountOf(r) >= 0.0
    ensures SumOf(rs) >= 0.0
  {
    if |rs| > 0 {
      assert rs[..|rs| - 1] <= rs;
      assert rs[|rs| - 1] in rs;
      SumOfNonNegative(rs[..|rs| - 1]);
    }
  }

  /** The records labelled `v` in column `c`, in order: a mask such as `df['type'] == 'expense'`. */
  function Where(rs: seq<Record>, c: Column, v: string): (sel: seq<Record>)
    ensures forall r :: r in sel <==> r in rs && Label(r, c) == Some(v)
  {
    if |rs| == 0 then []
    else
      var last := rs[|rs| - 1];
      assert rs == rs[..|rs| - 1] + [last];
      Where(rs[..|rs| - 1], c, v) + (if Label(last, c) == Some(v) then [last] else [])
  }

  /** The records with some label in column `c`: the ones `groupby(c)` keeps. */
  function Labelled(rs: seq<Record>, c: Column): (sel: seq<Record>)
    ensures forall r :: r in sel <==> r in rs && Label(r, c).Some?
  {
    if |rs| == 0 then []
    else
      var last := rs[|rs| - 1];
      assert rs == rs[..|rs| - 1] + [last];
      Labelled(rs[..|rs| - 1], c) + (if Label(last, c).Some? then [last] else [])
  }

  /** The (label, amount) pairs of the labelled records: what `groupby(c)['amount']` groups. */
  function Project(rs: seq<Record>, c: Column): seq<Entry> {
    if |rs| == 0 then []
    else
      var last := rs[|rs| - 1];
      Project(rs[..|rs| - 1], c) + (if Label(last, c).Some? then [Entry(Label(last, c).value, AmountOf(last))] else [])
  }

  lemma SumOfAppend(rs: seq<Record>, r: Record)
    ensures SumOf(rs + [r]) == SumOf(rs) + AmountOf(r)
  {
    assert (rs + [r])[..|rs|] == rs;
  }

  lemma KeyTotalAppend(es: seq<Entry>, e: Entry, k: string)
    ensures KeyTotal(es + [e], k) == KeyTotal(es, k) + (if e.key == k then e.value else 0.0)
  {
    assert (es + [e])[..|es|] == es;
  }

  /** The total `groupby(c).sum()` gives label `k` is the total amount of the records labelled `k`. */
  lemma {:induction false} ProjectKeyTotal(rs: seq<Record>, c: Column, k: string)
    ensures KeyTotal(Project(rs, c), k) == SumOf(Where(rs, c, k))
  {
    if |rs| > 0 {
      var init, last := rs[..|rs| - 1], rs[|rs| - 1];
      ProjectKeyTotal(init, c, k);
      var w := Where(init, c, k);
      if Label(last, c) == Some(k) {
        assert Where(rs, c, k) == w + [last];
        SumOfAppend(w, last);
      } else {
        assert Where(rs, c, k) == w;
      }
      if Label(last, c).Some? {
        var e := Entry(Label(last, c).value, AmountOf(last));
        assert Project(rs, c) == Project(init, c) + [e];
        KeyTotalAppend(Project(init, c), e, k);
        assert KeyTotal(Project(rs, c), k) == SumOf(w) + (if e.key == k then e.value else 0.0);
      } else {
        assert Project(rs, c) == Project(init, c);
      }
    }
  }

  /** The groups together hold the amounts of exactly the labelled records. */
  lemma {:induction false} ProjectTotal(rs: seq<Record>, c: Column)
    ensures Total(Project(rs, c)) == SumOf(Labelled(rs, c))
  {
    if |rs| > 0 {
      var init, last := rs[..|rs| - 1], rs[|rs| - 1];
      ProjectTotal(init, c);
      var l := Labelled(init, c);
      if Label(last, c).Some? {
        assert Project(rs, c) == Project(init, c) + [Entry(Label(last, c).value, AmountOf(last))];
        TotalAppend(Project(init, c), Entry(Label(last, c).value, AmountOf(last)));
        assert Labelled(rs, c) == l + [last];
        SumOfAppend(l, last);
      } else {
        assert Project(rs, c) == Project(init, c);
        assert Labelled(rs, c) == l;
      }
    }
  }

  /** The group labels are exactly the labels some record carries. */
  lemma {:induction false} ProjectKeys(rs: seq<Record>, c: Column)
    ensures forall k :: k in KeySet(Project(rs, c)) <==> exists r :: r in rs && Label(r, c) == Some(k)
  {
    if |rs| > 0 {
      var init, last := rs[..|rs| - 1], rs[|rs| - 1];
      ProjectKeys(init, c);
      assert rs == init + [last];
      var tail := if Label(last, c).Some? then [Entry(Label(last, c).value, AmountOf(last))] else [];
      KeySetConcat(Project(init, c), tail);
      if Label(last, c).Some? {
        assert tail[0].key == Label(last, c).value;
        assert KeySet(tail) == {Label(last, c).value};
      } else {
        assert KeySet(tail) == {};
      }
      forall k ensures k in KeySet(Project(rs, c)) <==> exists r :: r in rs && Label(r, c) == Some(k) {
        if r :| r in rs && Label(r, c) == Some(k) {
          if r != last {
            assert r in init;
          }
        }
      }
    }
  }

  /** Two masks may be applied in either order. */
  lemma {:induction false} WhereCommute(rs: seq<Record>, a: Column, x: string, b: Column, y: string)
    ensures Where(Where(rs, a, x), b, y) == Where(Where(rs, b, y), a, x)
  {
    if |rs| > 0 {
      var init, last := rs[..|rs| - 1], rs[|rs| - 1];
      WhereCommute(init, a, x, b, y);
      var wa := Where(init, a, x);
      var wb := Where(init, b, y);
      if Label(last, a) == Some(x) {
        assert (wa + [last])[..|wa|] == wa;
      } else {
        assert Where(rs, a, x) == wa;
      }
      if Label(last, b) == Some(y) {
        assert (wb + [last])[..|wb|] == wb;
      } else {
        assert Where(rs, b, y) == wb;
      }
    }
  }

  /** Every record has a month, so `groupby('month')` drops nothing. */
  lemma {:induction false} AllHaveMonths(rs: seq<Record>)
    ensures Labelled(rs, MonthColumn) == rs
  {
    if |rs| > 0 {
      AllHaveMonths(rs[..|rs| - 1]);
      assert rs == rs[..|rs| - 1] + [rs[|rs| - 1]];
    }
  }

  /** The value grouped under `k`, or 0 when there is no such group (`fill_value=0`). */
  function Lookup(gs: seq<Entry>, k: string): real {
    if |gs| == 0 then 0.0
    else if gs[0].key == k then gs[0].value
    else Lookup(gs[1..], k)
  }

  /** Looking a key up in `GroupSum(es)` gives that key's total, zero when absent. */
  lemma LookupGroupSum(es: seq<Entry>, k: string)
    ensures Lookup(GroupSum(es), k) == KeyTotal(es, k)
  {
    var gs := GroupSum(es);
    if k in KeySet(es) {
      assert k in KeySet(gs);
      var i :| 0 <= i < |gs| && gs[i].key == k;
      LookupFirst(gs, i);
    } else {
      KeyTotalAbsent(es, k);
      LookupAbsent(gs, k);
    }
  }

  lemma {:induction false} LookupFirst(gs: seq<Entry>, i: nat)
    requires Ascending(Keys(gs)) && i < |gs|
    ensures Lookup(gs, gs[i].key) == gs[i].value
  {
    if i > 0 {
      AscendingDistinct(Keys(gs), 0, i);
      assert Keys(gs[1..]) == Keys(gs)[1..];
      LookupFirst(gs[1..], i - 1);
    }
  }

  lemma {:induction false} LookupAbsent(gs: seq<Entry>, k: string)
    requires k !in KeySet(gs)
    ensures Lookup(gs, k) == 0.0
  {
    if |gs| > 0 {
      assert gs[0].key in KeySet(gs);
      assert KeySet(gs[1..]) <= KeySet(gs) by {
        forall x | x in KeySet(gs[1..]) ensures x in KeySet(gs) {
          var i :| 0 <= i < |gs| - 1 && gs[1..][i].key == x;
          assert gs[i + 1].key == x;
        }
      }
      LookupAbsent(gs[1..], k);
    }
  }

  // ---------------------------------------------------------------------------
  // Month x type table (line 49)
  // ---------------------------------------------------------------------------

  /**
   * `groupby(['month', 'type'])['amount'].sum().unstack(fill_value=0)`: the
   * months (rows) and types (columns) in ascending order, and one cell per
   * pair. Records with a missing type are dropped by the groupby.
   */
  datatype Table = Table(months: seq<string>, kinds: seq<string>, cells: seq<seq<real>>)

  /** Every row of the table has one cell per type. */
  predicate WellShaped(t: Table) {
    |t.cells| == |t.months| && forall i :: 0 <= i < |t.cells| ==> |t.cells[i]| == |t.kinds|
  }

  function MonthlyTable(rs: seq<Record>): (t: Table)
    ensures WellShaped(t)
    ensures Ascending(t.months) && Ascending(t.kinds)
    ensures forall m :: m in t.months <==> exists r :: r in rs && r.kind.Some? && Key(r.month) == m
    ensures forall k :: k in t.kinds <==> exists r :: r in rs && r.kind == Some(k)
  {
    var months := SortedKeys(Project(Labelled(rs, KindColumn), MonthColumn));
    var kinds := SortedKeys(Project(rs, KindColumn));
    TableMonths(rs);
    TableKinds(rs);
    var cells := seq(|months|, i requires 0 <= i < |months| =>
      var groups := GroupSum(Project(Where(rs, MonthColumn, months[i]), KindColumn));
      seq(|kinds|, j requires 0 <= j < |kinds| => Lookup(groups, kinds[j])));
    Table(months, kinds, cells)
  }

  /** The table's months: those of the records that have a type. */
  lemma TableMonths(rs: seq<Record>)
    ensures forall m :: m in SortedKeys(Project(Labelled(rs, KindColumn), MonthColumn)) <==>
      exists r :: r in rs && r.kind.Some? && Key(r.month) == m
  {
    var typed := Labelled(rs, KindColumn);
    ProjectKeys(typed, MonthColumn);
    forall m ensures m in KeySet(Project(typed, MonthColumn)) <==> exists r :: r in rs && r.kind.Some? && Key(r.month) == m {
      if exists r :: r in rs && r.kind.Some? && Key(r.month) == m {
        var r :| r in rs && r.kind.Some? && Key(r.month) == m;
        assert r in typed && Label(r, MonthColumn) == Some(m);
      }
    }
  }

  /** The table's types: those the records carry. */
  lemma TableKinds(rs: seq<Record>)
    ensures forall k :: k in SortedKeys(Project(rs, KindColumn)) <==> exists r :: r in rs && r.kind == Some(k)
  {
    ProjectKeys(rs, KindColumn);
  }

  /** Each cell holds the total amount of the records of its month and type. */
  lemma TableCell(rs: seq<Record>, i: nat, j: nat)
    requires i < |MonthlyTable(rs).months| && j < |MonthlyTable(rs).kinds|
    ensures var t := MonthlyTable(rs);
      t.cells[i][j] == SumOf(Where(Where(rs, MonthColumn, t.months[i]), KindColumn, t.kinds[j]))
  {
    var t := MonthlyTable(rs);
    var inMonth := Where(rs, MonthColumn, t.months[i]);
    LookupGroupSum(Project(inMonth, KindColumn), t.kinds[j]);
    ProjectKeyTotal(inMonth, KindColumn, t.kinds[j]);
  }

  /** A month and type that no record combines get a zero cell (`fill_value=0`). */
  lemma TableZeroFill(rs: seq<Record>, i: nat, j: nat)
    requires i < |MonthlyTable(rs).months| && j < |MonthlyTable(rs).kinds|
    requires forall r :: r in rs ==> Key(r.month) != MonthlyTable(rs).months[i] || r.kind != Some(MonthlyTable(rs).kinds[j])
    ensures MonthlyTable(rs).cells[i][j] == 0.0
  {
    var t := MonthlyTable(rs);
    var inMonth := Where(rs, MonthColumn, t.months[i]);
    ProjectKeys(inMonth, KindColumn);
    KeyTotalAbsent(Project(inMonth, KindColumn), t.kinds[j]);
    LookupGroupSum(Project(inMonth, KindColumn), t.kinds[j]);
  }

  /** The cells of one type's column, month by month. */
  function ColumnOf(t: Table, j: nat): (col: seq<real>)
    requires WellShaped(t) && j < |t.kinds|
    ensures |col| == |t.months| && forall i :: 0 <= i < |col| ==> col[i] == t.cells[i][j]
  {
    seq(|t.months|, i requires 0 <= i < |t.months| => t.cells[i][j])
  }

  /**
   * Conservation: a type's column adds up to the total amount of all records
   * of that type; no dated record is dropped or counted twice.
   */
  lemma TableColumnTotal(rs: seq<Record>, j: nat)
    requires j < |MonthlyTable(rs).kinds|
    ensures var t := MonthlyTable(rs);
      Sum(ColumnOf(t, j)) == SumOf(Where(rs, KindColumn, t.kinds[j]))
  {
    var t := MonthlyTable(rs);
    var k := t.kinds[j];
    var ofKind := Where(rs, KindColumn, k);
    var es := Project(ofKind, MonthColumn);
    forall i | 0 <= i < |t.months| ensures ColumnOf(t, j)[i] == Totals(t.months, es)[i] {
      TableCell(rs, i, j);
      WhereCommute(rs, MonthColumn, t.months[i], KindColumn, k);
      ProjectKeyTotal(ofKind, MonthColumn, t.months[i]);
    }
    assert ColumnOf(t, j) == Totals(t.months, es);
    ProjectKeys(ofKind, MonthColumn);
    forall m | m in KeySet(es) ensures m in t.months {
      var r :| r in ofKind && Label(r, MonthColumn) == Some(m);
    }
    TotalsConserve(t.months, es);
    ProjectTotal(ofKind, MonthColumn);
    AllHaveMonths(ofKind);
  }

  // ---------------------------------------------------------------------------
  // Expense ranking by category (lines 62-64)
  // ---------------------------------------------------------------------------

  /** The records whose type is "expense": `df[df['type'] == 'expense']`. */
  function Expenses(rs: seq<Record>): (es: seq<Record>)
    ensures forall r :: r in es <==> r in rs && r.kind == Some("expense")
  {
    Where(rs, KindColumn, "expense")
  }

  /** Values never increase along the list. */
  predicate NonIncreasing(es: seq<Entry>) {
    forall i, j :: 0 <= i < j < |es| ==> es[i].value >= es[j].value
  }
  /** No key occurs twice. */
  predicate DistinctKeys(es: seq<Entry>) {
    forall i, j :: 0 <= i < j < |es| ==> es[i].key != es[j].key
  }
  lemma ConsOrder(x: Entry, s: seq<Entry>)
    requires NonIncreasing(s) && forall y :: y in s ==> x.value >= y.value
    ensures NonIncreasing([x] + s)
  {
  }
  lemma TailOrder(s: seq<Entry>)
    requires NonIncreasing(s) && |s| > 0
    ensures NonIncreasing(s[1..]) && forall y :: y in s ==> s[0].value >= y.value
  {
  }
  lemma ConsDistinct(x: Entry, s: seq<Entry>)
    requires DistinctKeys(s) && forall y :: y in s ==> x.key != y.key
    ensures DistinctKeys([x] + s)
  {
  }
  lemma TailDistinct(s: seq<Entry>)
    requires DistinctKeys(s) && |s| > 0
    ensures DistinctKeys(s[1..]) && forall y :: y in s[1..] ==> s[0].key != y.key
  {
  }
  lemma ConsTotal(x: Entry, s: seq<Entry>)
    ensures Total([x] + s) == x.value + Total(s)
  {
    TotalConcat([x], s);
    assert [] + [x] == [x];
    TotalAppend([], x);
  }

  /** Puts `e` in front of the first entry that is not larger than it. */
  function InsertDescending(e: Entry, sorted: seq<Entry>): seq<Entry> {
    if |sorted| == 0 || sorted[0].value <= e.value then [e] + sorted
    else [sorted[0]] + InsertDescending(e, sorted[1..])
  }

  /** Inserting adds `e` to the contents and its value to the total. */
  lemma {:induction false} InsertContents(e: Entry, sorted: seq<Entry>)
    ensures multiset(InsertDescending(e, sorted)) == multiset(sorted) + multiset{e}
    ensures Total(InsertDescending(e, sorted)) == Total(sorted) + e.value
  {
    if |sorted| == 0 || sorted[0].value <= e.value {
      ConsTotal(e, sorted);
    } else {
      var head, tail := sorted[0], sorted[1..];
      assert sorted == [head] + tail;
      InsertContents(e, tail);
      ConsTotal(head, InsertDescending(e, tail));
      ConsTotal(head, tail);
    }
  }

  /** Inserting into a non-increasing list keeps it non-increasing. */
  lemma {:induction false} InsertOrder(e: Entry, sorted: seq<Entry>)
    requires NonIncreasing(sorted)
    ensures NonIncreasing(InsertDescending(e, sorted))
  {
    if |sorted| == 0 || sorted[0].value <= e.value {
      if |sorted| > 0 {
        TailOrder(sorted);
      }
      ConsOrder(e, sorted);
    } else {
      var head, tail := sorted[0], sorted[1..];
      TailOrder(sorted);
      InsertOrder(e, tail);
      var rest := InsertDescending(e, tail);
      InsertContents(e, tail);
      forall y | y in rest ensures head.value >= y.value {
        assert y in multiset(rest);
      }
      ConsOrder(head, rest);
    }
  }

  /** Inserting an entry with a new key keeps the keys distinct. */
  lemma {:induction false} InsertDistinct(e: Entry, sorted: seq<Entry>)
    requires DistinctKeys(sorted) && forall x :: x in sorted ==> x.key != e.key
    ensures DistinctKeys(InsertDescending(e, sorted))
  {
    if |sorted| == 0 || sorted[0].value <= e.value {
      ConsDistinct(e, sorted);
    } else {
      var head, tail := sorted[0], sorted[1..];
      TailDistinct(sorted);
      InsertDistinct(e, tail);
      var rest := InsertDescending(e, tail);
      InsertContents(e, tail);
      forall y | y in rest ensures head.key != y.key {
        assert y in multiset(rest);
      }
      ConsDistinct(head, rest);
    }
  }

  /**
   * `sort_values(ascending=False)`, modelled as a stable insertion sort
   * (pandas' default quicksort may order equal totals differently).
   */
  function SortDescending(es: seq<Entry>): (sorted: seq<Entry>)
    ensures multiset(sorted) == multiset(es)
    ensures NonIncreasing(sorted)
  {
    if |es| == 0 then []
    else
      var rest := SortDescending(es[1..]);
      InsertContents(es[0], rest);
      InsertOrder(es[0], rest);
      assert es == [es[0]] + es[1..];
      InsertDescending(es[0], rest)
  }

  /** Sorting keeps the total. */
  lemma {:induction false} SortContents(es: seq<Entry>)
    ensures Total(SortDescending(es)) == Total(es)
  {
    if |es| > 0 {
      var head, tail := es[0], es[1..];
      assert es == [head] + tail;
      ConsTotal(head, tail);
      SortContents(tail);
      InsertContents(head, SortDescending(tail));
    }
  }

  /** Sorting entries with distinct keys leaves the keys distinct. */
  lemma {:induction false} SortDistinct(es: seq<Entry>)
    requires DistinctKeys(es)
    ensures DistinctKeys(SortDescending(es))
  {
    if |es| > 0 {
      var head, tail := es[0], es[1..];
      TailDistinct(es);
      SortDistinct(tail);
      var rest := SortDescending(tail);
      forall y | y in rest ensures head.key != y.key {
        assert y in multiset(rest);
      }
      InsertDistinct(head, rest);
    }
  }

  /**
   * The sorted list is a permutation of the input, with values non-increasing,
   * the same total, and keys still distinct when they were.
   */
  lemma SortSpec(es: seq<Entry>)
    ensures NonIncreasing(SortDescending(es))
    ensures multiset(SortDescending(es)) == multiset(es)
    ensures Total(SortDescending(es)) == Total(es)
    ensures DistinctKeys(es) ==> DistinctKeys(SortDescending(es))
  {
    SortContents(es);
    if DistinctKeys(es) {
      SortDistinct(es);
    }
  }

  lemma AscendingKeysDistinct(es: seq<Entry>)
    requires Ascending(Keys(es))
    ensures DistinctKeys(es)
  {
    forall i, j | 0 <= i < j < |es| ensures es[i].key != es[j].key {
      AscendingDistinct(Keys(es), i, j);
    }
  }

  /**
   * Lines 62-64: nothing when there is no expense record; otherwise the
   * expense total of each category, largest first. Records whose category is
   * missing are dropped by the groupby.
   */
  function CategoryRanking(rs: seq<Record>): (ranking: Option<seq<Entry>>)
    ensures ranking.None? <==> forall r :: r in rs ==> r.kind != Some("expense")
    ensures ranking.Some? ==> NonIncreasing(ranking.value) && DistinctKeys(ranking.value)
  {
    var expenses := Expenses(rs);
    if |expenses| == 0 then
      assert forall r :: r in rs ==> r.kind != Some("expense") by {
        forall r | r in rs ensures r.kind != Some("expense") {
          if r.kind == Some("expense") {
            assert false;
          }
        }
      }
      None
    else
      assert expenses[0] in expenses;
      var groups := GroupSum(Project(expenses, CategoryColumn));
      AscendingKeysDistinct(groups);
      SortSpec(groups);
      Some(SortDescending(groups))
  }

  /** Each ranked value is the total of its category's expenses. */
  lemma RankingValues(rs: seq<Record>)
    requires CategoryRanking(rs).Some?
    ensures forall e :: e in CategoryRanking(rs).value ==> e.value == SumOf(Where(Expenses(rs), CategoryColumn, e.key))
  {
    var expenses := Expenses(rs);
    var groups := GroupSum(Project(expenses, CategoryColumn));
    var ranking := CategoryRanking(rs).value;
    SortSpec(groups);
    forall e | e in ranking ensures e.value == SumOf(Where(expenses, CategoryColumn, e.key)) {
      assert e in multiset(groups);
      var i :| 0 <= i < |groups| && groups[i] == e;
      assert e.value == KeyTotal(Project(expenses, CategoryColumn), e.key);
      ProjectKeyTotal(expenses, CategoryColumn, e.key);
    }
  }

  /** The ranked categories are exactly the categories of the expense records. */
  lemma RankingCategories(rs: seq<Record>)
    requires CategoryRanking(rs).Some?
    ensures forall e :: e in CategoryRanking(rs).value ==>
      exists r :: r in rs && r.kind == Some("expense") && r.category == Some(e.key)
    ensures forall r :: r in rs && r.kind == Some("expense") && r.category.Some? ==>
      exists e :: e in CategoryRanking(rs).value && e.key == r.category.value
  {
    var expenses := Expenses(rs);
    var groups := GroupSum(Project(expenses, CategoryColumn));
    var ranking := CategoryRanking(rs).value;
    SortSpec(groups);
    ProjectKeys(expenses, CategoryColumn);
    forall e | e in ranking ensures exists r :: r in rs && r.kind == Some("expense") && r.category == Some(e.key) {
      assert e in multiset(groups);
      var i :| 0 <= i < |groups| && groups[i] == e;
      assert e.key in KeySet(groups);
      var r :| r in expenses && Label(r, CategoryColumn) == Some(e.key);
    }
    forall r | r in rs && r.kind == Some("expense") && r.category.Some?
      ensures exists e :: e in ranking && e.key == r.category.value
    {
      assert r in expenses && Label(r, CategoryColumn) == Some(r.category.value);
      assert r.category.value in KeySet(groups);
      var i :| 0 <= i < |groups| && groups[i].key == r.category.value;
      assert groups[i] in multiset(ranking);
    }
  }

  /** The ranked totals add up to the total of the expenses that have a category. */
  lemma RankingTotal(rs: seq<Record>)
    requires CategoryRanking(rs).Some?
    ensures Total(CategoryRanking(rs).value) == SumOf(Labelled(Expenses(rs), CategoryColumn))
  {
    SortSpec(GroupSum(Project(Expenses(rs), CategoryColumn)));
    ProjectTotal(Expenses(rs), CategoryColumn);
  }

  // ---------------------------------------------------------------------------
  // Expense trend (lines 75-76)
  // ---------------------------------------------------------------------------

  /** One point of the trend: the month, its position `month_num`, and its expense total. */
  datatype TrendPoint = TrendPoint(month: string, index: nat, total: real)

  /**
   * `expense_data.groupby('month')['amount'].sum().reset_index()` with
   * `month_num = np.arange(len(...))`: one point per month that has an expense
   * record (and only those), in ascending order, numbered from 0.
   */
  function ExpenseTrend(rs: seq<Record>): (trend: seq<TrendPoint>)
    ensures forall i :: 0 <= i < |trend| ==> trend[i].index == i
    ensures forall i, j :: 0 <= i < j < |trend| ==> StrLess(trend[i].month, trend[j].month)
    ensures forall i :: 0 <= i < |trend| ==>
      trend[i].total == SumOf(Where(Expenses(rs), MonthColumn, trend[i].month))
  {
    var gs := GroupSum(Project(Expenses(rs), MonthColumn));
    GroupedSums(Expenses(rs), MonthColumn);
    seq(|gs|, i requires 0 <= i < |gs| => TrendPoint(gs[i].key, i, gs[i].value))
  }

  /** Each group's value is the sum over the records carrying its key. */
  lemma GroupedSums(rs: seq<Record>, c: Column)
    ensures forall i :: 0 <= i < |GroupSum(Project(rs, c))| ==>
      GroupSum(Project(rs, c))[i].value == SumOf(Where(rs, c, GroupSum(Project(rs, c))[i].key))
  {
    var gs := GroupSum(Project(rs, c));
    forall i | 0 <= i < |gs| ensures gs[i].value == SumOf(Where(rs, c, gs[i].key)) {
      ProjectKeyTotal(rs, c, gs[i].key);
    }
  }

  /** Every month of the trend is the month of some expense record. */
  lemma TrendMonthsAreExpenseMonths(rs: seq<Record>)
    ensures forall i :: 0 <= i < |ExpenseTrend(rs)| ==>
      exists r :: r in rs && r.kind == Some("expense") && Key(r.month) == ExpenseTrend(rs)[i].month
  {
    var expenses := Expenses(rs);
    var gs := GroupSum(Project(expenses, MonthColumn));
    var trend := ExpenseTrend(rs);
    ProjectKeys(expenses, MonthColumn);
    forall i | 0 <= i < |trend| ensures exists r :: r in rs && r.kind == Some("expense") && Key(r.month) == trend[i].month {
      assert gs[i].key in KeySet(gs);
      var r :| r in expenses && Label(r, MonthColumn) == Some(gs[i].key);
    }
  }

  /**
   * Every month with an expense record has a point in the trend; months with
   * only other records do not (the lemma above).
   */
  lemma ExpenseMonthsInTrend(rs: seq<Record>)
    ensures forall r :: r in rs && r.kind == Some("expense") ==>
      exists i :: 0 <= i < |ExpenseTrend(rs)| && ExpenseTrend(rs)[i].month == Key(r.month)
  {
    var expenses := Expenses(rs);
    var gs := GroupSum(Project(expenses, MonthColumn));
    var trend := ExpenseTrend(rs);
    ProjectKeys(expenses, MonthColumn);
    forall r | r in rs && r.kind == Some("expense") ensures exists i :: 0 <= i < |trend| && trend[i].month == Key(r.month) {
      assert r in expenses && Label(r, MonthColumn) == Some(Key(r.month));
      assert Key(r.month) in KeySet(gs);
      var i :| 0 <= i < |gs| && gs[i].key == Key(r.month);
      assert trend[i].month == Key(r.month);
    }
  }

  /** The trend is empty exactly when no record is an expense. */
  lemma TrendEmptyIff(rs: seq<Record>)
    ensures |ExpenseTrend(rs)| == 0 <==> forall r :: r in rs ==> r.kind != Some("expense")
  {
    var expenses := Expenses(rs);
    var gs := GroupSum(Project(expenses, MonthColumn));
    assert |ExpenseTrend(rs)| == |gs|;
    ProjectKeys(expenses, MonthColumn);
    if |gs| > 0 {
      assert gs[0].key in KeySet(gs);
      var r :| r in expenses && Label(r, MonthColumn) == Some(gs[0].key);
    }
    if exists r :: r in rs && r.kind == Some("expense") {
      var r :| r in rs && r.kind == Some("expense");
      assert r in expenses && Label(r, MonthColumn) == Some(Key(r.month));
      assert Key(r.month) in KeySet(gs);
    }
  }

  /** The trend's totals, in order: the series the forecast is fitted to. */
  function Series(trend: seq<TrendPoint>): (ys: seq<real>)
    ensures |ys| == |trend| && forall i :: 0 <= i < |trend| ==> ys[i] == trend[i].total
  {
    seq(|trend|, i requires 0 <= i < |trend| => trend[i].total)
  }

  /**
   * Conservation for the trend: the monthly totals add up to the total of all
   * expense records, since every record has a month.
   */
  lemma TrendTotal(rs: seq<Record>)
    ensures Sum(Series(ExpenseTrend(rs))) == SumOf(Expenses(rs))
  {
    var expenses := Expenses(rs);
    var gs := GroupSum(Project(expenses, MonthColumn));
    assert Series(ExpenseTrend(rs)) == Values(gs);
    ProjectTotal(expenses, MonthColumn);
    AllHaveMonths(expenses);
  }

  /**
   * Ascending "YYYY-MM" strings are chronological: an earlier point of the
   * trend is an earlier calendar month.
   */
  lemma TrendChronological(rs: seq<Record>, i: nat, j: nat)
    requires i < j < |ExpenseTrend(rs)|
    ensures exists a: Month, b: Month :: Key(a) == ExpenseTrend(rs)[i].month && Key(b) == ExpenseTrend(rs)[j].month && Before(a, b)
  {
    var trend := ExpenseTrend(rs);
    TrendMonthsAreExpenseMonths(rs);
    var ra :| ra in rs && ra.kind == Some("expense") && Key(ra.month) == trend[i].month;
    var rb :| rb in rs && rb.kind == Some("expense") && Key(rb.month) == trend[j].month;
    KeyOrder(ra.month, rb.month);
  }
}

=== FILE: forecast.dfy ===
/**
 * The expense forecast of ml/finance_model.py:78-90: an unshuffled 80/20
 * split of the monthly expense series, an ordinary-least-squares line
 * `y = slope * x + intercept` fitted on the training prefix with x the month
 * index, its mean absolute error on the held-out suffix, and its value at the
 * next index. Arithmetic is exact (`real`), not IEEE.
 */
module Forecasting {
  import opened Wrappers
  import opened Sums

  datatype Line = Line(slope: real, intercept: real)

  /** The line's value at `x`, which `LinearRegression.predict` returns. */
  function At(l: Line, x: real): real {
    l.slope * x + l.intercept
  }

  // ---------------------------------------------------------------------------
  // Least squares on points (xs[i], ys[i])
  // ---------------------------------------------------------------------------

  /** The month indices 0 .. k-1 as numbers: `np.arange(k)`. */
  function Indices(k: nat): (xs: seq<real>)
    ensures |xs| == k && forall i :: 0 <= i < k ==> xs[i] == i as real
  {
    seq(k, i requires 0 <= i < k => i as real)
  }

  /** The residuals ys[i] - l(xs[i]) of a line on the points. */
  function Residuals(xs: seq<real>, ys: seq<real>, l: Line): (rs: seq<real>)
    requires |xs| == |ys|
    ensures |rs| == |ys| && forall i :: 0 <= i < |ys| ==> rs[i] == ys[i] - At(l, xs[i])
  {
    seq(|ys|, i requires 0 <= i < |ys| => ys[i] - At(l, xs[i]))
  }

  /** Sum of squared residuals: the quantity least squares minimises. */
  function SquaredError(xs: seq<real>, ys: seq<real>, l: Line): real
    requires |xs| == |ys|
  {
    var rs := Residuals(xs, ys, l);
    Sum(Products(rs, rs))
  }

  /** The differences l(xs[i]) - m(xs[i]) between two lines. */
  function Gaps(xs: seq<real>, l: Line, m: Line): (ds: seq<real>)
    ensures |ds| == |xs| && forall i :: 0 <= i < |xs| ==> ds[i] == At(l, xs[i]) - At(m, xs[i])
  {
    seq(|xs|, i requires 0 <= i < |xs| => At(l, xs[i]) - At(m, xs[i]))
  }

  /** n * sum(x^2) - (sum x)^2: n^2 times the variance of the x values. */
  function Spread(xs: seq<real>): real {
    (|xs| as real) * Sum(Products(xs, xs)) - Sum(xs) * Sum(xs)
  }

  lemma {:induction false} SumIndices(k: nat)
    ensures Sum(Indices(k)) == (k as real) * ((k as real) - 1.0) / 2.0
  {
    if k > 0 {
      assert Indices(k)[..k - 1] == Indices(k - 1);
      SumIndices(k - 1);
    }
  }

  lemma {:induction false} SumSquaredIndices(k: nat)
    ensures Sum(Products(Indices(k), Indices(k))) == (k as real - 1.0) * (k as real) * (2.0 * (k as real) - 1.0) / 6.0
  {
    if k > 0 {
      var sq, sq' := Products(Indices(k), Indices(k)), Products(Indices(k - 1), Indices(k - 1));
      assert forall i :: 0 <= i < k - 1 ==> sq[i] == sq'[i];
      assert sq[..k - 1] == sq';
      SumSquaredIndices(k - 1);
    }
  }

  /** Two or more distinct month indices have a positive spread. */
  lemma IndicesSpread(k: nat)
    requires k >= 2
    ensures Spread(Indices(k)) > 0.0
  {
    var n := k as real;
    SumIndices(k);
    SumSquaredIndices(k);
    var sx, sxx := Sum(Indices(k)), Sum(Products(Indices(k), Indices(k)));
    SpreadAlgebra(n, sx, sxx);
  }

  lemma SpreadAlgebra(n: real, sx: real, sxx: real)
    requires n >= 2.0
    requires sx == n * (n - 1.0) / 2.0
    requires sxx == (n - 1.0) * n * (2.0 * n - 1.0) / 6.0
    ensures n * sxx - sx * sx > 0.0
  {
    calc {
      n * sxx - sx * sx;
    ==
      n * ((n - 1.0) * n * (2.0 * n - 1.0) / 6.0) - (n * (n - 1.0) / 2.0) * (n * (n - 1.0) / 2.0);
    ==
      (n * n) * ((n - 1.0) * (n + 1.0)) / 12.0;
    }
    assert n * n >= 4.0;
    assert (n - 1.0) * (n + 1.0) >= 3.0;
    assert (n * n) * ((n - 1.0) * (n + 1.0)) >= 12.0;
  }

  /**
   * `LinearRegression().fit(X, y)` on the points (xs[i], ys[i]): the
   * closed-form ordinary-least-squares line, with the intercept fitted.
   */
  function FitPoints(xs: seq<real>, ys: seq<real>): (l: Line)
    requires |xs| == |ys| && Spread(xs) > 0.0
    ensures Sum(ys) - l.slope * Sum(xs) - (|xs| as real) * l.intercept == 0.0
    ensures Sum(Products(xs, ys)) - l.slope * Sum(Products(xs, xs)) - l.intercept * Sum(xs) == 0.0
  {
    ClosedForm(|xs| as real, Sum(xs), Sum(Products(xs, xs)), Sum(ys), Sum(Products(xs, ys)))
  }

  /**
   * The fit on the training series, whose x values are the month indices
   * 0 .. k-1: its residuals sum to 0 and are orthogonal to the indices.
   */
  function Fit(ys: seq<real>): (l: Line)
    requires |ys| >= 2
    ensures Sum(Residuals(Indices(|ys|), ys, l)) == 0.0
    ensures Sum(Products(Indices(|ys|), Residuals(Indices(|ys|), ys, l))) == 0.0
  {
    IndicesSpread(|ys|);
    FitNormalEquations(Indices(|ys|), ys);
    FitPoints(Indices(|ys|), ys)
  }

  /**
   * The least-squares line from the point count `n` and the raw sums of x,
   * x^2, y and x*y: slope (n*sxy - sx*sy) / (n*sxx - sx^2), intercept
   * (sy - slope*sx) / n.
   */
  function ClosedForm(n: real, sx: real, sxx: real, sy: real, sxy: real): (l: Line)
    requires n * sxx - sx * sx > 0.0
    requires n > 0.0
    ensures sy - l.slope * sx - n * l.intercept == 0.0
    ensures sxy - l.slope * sxx - l.intercept * sx == 0.0
  {
    var a := (n * sxy - sx * sy) / (n * sxx - sx * sx);
    var b := (sy - a * sx) / n;
    NormalAlgebra(n, sx, sxx, sy, sxy, a, b);
    Line(a, b)
  }

  /** The closed-form slope and intercept solve the two normal equations. */
  lemma NormalAlgebra(n: real, sx: real, sxx: real, sy: real, sxy: real, a: real, b: real)
    requires n > 0.0 && n * sxx - sx * sx > 0.0
    requires a == (n * sxy - sx * sy) / (n * sxx - sx * sx)
    requires b == (sy - a * sx) / n
    ensures sy - a * sx - n * b == 0.0
    ensures sxy - a * sxx - b * sx == 0.0
  {
    var d := n * sxx - sx * sx;
    var p := n * sxy - sx * sy;
    assert a * d == p;
    assert n * b == sy - a * sx;
    calc {
      n * (sxy - a * sxx - b * sx);
    ==
      n * sxy - a * (n * sxx) - (n * b) * sx;
    ==
      n * sxy - a * (n * sxx) - (sy - a * sx) * sx;
    ==
      p - a * d;
    ==
      0.0;
    }
    ProductZero(n, sxy - a * sxx - b * sx);
  }

  lemma ProductZero(n: real, x: real)
    requires n != 0.0 && n * x == 0.0
    ensures x == 0.0
  {
  }

  /** The residuals of a line summed: linear in the sums of y and x. */
  lemma ResidualSum(xs: seq<real>, ys: seq<real>, l: Line)
    requires |xs| == |ys|
    ensures Sum(Residuals(xs, ys, l))
         == Sum(ys) + Sum(Scale(-l.slope, xs)) + Sum(Constant(|xs|, -l.intercept)) + Sum(Constant(|xs|, 0.0))
  {
    var k := |xs|;
    SumAdd(Residuals(xs, ys, l), ys, Scale(-l.slope, xs), Constant(k, -l.intercept), Constant(k, 0.0));
  }

  /** The residuals of a line weighted by x and summed: linear in the sums of x*y, x^2 and x. */
  lemma ResidualMoment(xs: seq<real>, ys: seq<real>, l: Line)
    requires |xs| == |ys|
    ensures Sum(Products(xs, Residuals(xs, ys, l)))
         == Sum(Products(xs, ys)) + Sum(Scale(-l.slope, Products(xs, xs))) + Sum(Scale(-l.intercept, xs))
          + Sum(Constant(|xs|, 0.0))
  {
    var k := |xs|;
    var rs := Residuals(xs, ys, l);
    var ps, xy, xx, sc, zs := Products(xs, rs), Products(xs, ys), Scale(-l.slope, Products(xs, xs)),
      Scale(-l.intercept, xs), Constant(k, 0.0);
    forall i | 0 <= i < k ensures ps[i] == xy[i] + xx[i] + sc[i] + zs[i] {
      MomentTerm(xs[i], ys[i], l);
    }
    SumAdd(ps, xy, xx, sc, zs);
  }

  lemma MomentTerm(x: real, y: real, l: Line)
    ensures x * (y - At(l, x)) == x * y + (-l.slope) * (x * x) + (-l.intercept) * x + 0.0
  {
  }

  /** The first normal equation says the residuals sum to zero. */
  lemma ResidualSumZero(xs: seq<real>, ys: seq<real>, l: Line)
    requires |xs| == |ys|
    requires Sum(ys) - l.slope * Sum(xs) - (|xs| as real) * l.intercept == 0.0
    ensures Sum(Residuals(xs, ys, l)) == 0.0
  {
    var k := |xs|;
    ResidualSum(xs, ys, l);
    SumScale(-l.slope, xs);
    SumConstant(k, -l.intercept);
    SumConstant(k, 0.0);
  }

  /** The second normal equation says the residuals are uncorrelated with x. */
  lemma ResidualMomentZero(xs: seq<real>, ys: seq<real>, l: Line)
    requires |xs| == |ys|
    requires Sum(Products(xs, ys)) - l.slope * Sum(Products(xs, xs)) - l.intercept * Sum(xs) == 0.0
    ensures Sum(Products(xs, Residuals(xs, ys, l))) == 0.0
  {
    ResidualMoment(xs, ys, l);
    SumScale(-l.slope, Products(xs, xs));
    SumScale(-l.intercept, xs);
    SumConstant(|xs|, 0.0);
  }

  /**
   * The fitted line solves the normal equations of least squares: its
   * residuals sum to zero and are uncorrelated with x.
   */
  lemma FitNormalEquations(xs: seq<real>, ys: seq<real>)
    requires |xs| == |ys| && Spread(xs) > 0.0
    ensures Sum(Residuals(xs, ys, FitPoints(xs, ys))) == 0.0
    ensures Sum(Products(xs, Residuals(xs, ys, FitPoints(xs, ys)))) == 0.0
  {
    var l := FitPoints(xs, ys);
    ResidualSumZero(xs, ys, l);
    ResidualMomentZero(xs, ys, l);
  }

  /** One term of `SquaredErrorShift`: (y - m(x))^2 expanded around l(x). */
  lemma ShiftTerm(y: real, x: real, l: Line, m: Line)
    ensures (y - At(m, x)) * (y - At(m, x))
      == (y - At(l, x)) * (y - At(l, x))
       + (2.0 * (l.slope - m.slope)) * (x * (y - At(l, x)))
       + (2.0 * (l.intercept - m.intercept)) * (y - At(l, x))
       + (At(l, x) - At(m, x)) * (At(l, x) - At(m, x))
  {
    var e := y - At(l, x);
    var d := At(l, x) - At(m, x);
    assert y - At(m, x) == e + d;
    assert (e + d) * (e + d) == e * e + 2.0 * (e * d) + d * d;
    assert d == (l.slope - m.slope) * x + (l.intercept - m.intercept);
    assert 2.0 * (e * d) == (2.0 * (l.slope - m.slope)) * (x * e) + (2.0 * (l.intercept - m.intercept)) * e;
  }

  /**
   * For any two lines, the squared error of `m` is that of `l`, plus cross
   * terms in `l`'s two residual sums, plus the squared gap between the lines.
   */
  lemma SquaredErrorShift(xs: seq<real>, ys: seq<real>, l: Line, m: Line)
    requires |xs| == |ys|
    ensures SquaredError(xs, ys, m) == SquaredError(xs, ys, l)
      + (2.0 * (l.slope - m.slope)) * Sum(Products(xs, Residuals(xs, ys, l)))
      + (2.0 * (l.intercept - m.intercept)) * Sum(Residuals(xs, ys, l))
      + Sum(Products(Gaps(xs, l, m), Gaps(xs, l, m)))
  {
    var rl, rm, gs := Residuals(xs, ys, l), Residuals(xs, ys, m), Gaps(xs, l, m);
    var ds, di := 2.0 * (l.slope - m.slope), 2.0 * (l.intercept - m.intercept);
    ShiftTerms(xs, ys, l, m);
    SumAdd(Products(rm, rm), Products(rl, rl), Scale(ds, Products(xs, rl)), Scale(di, rl), Products(gs, gs));
    SumScale(ds, Products(xs, rl));
    SumScale(di, rl);
  }

  /** `ShiftTerm` at every point. */
  lemma ShiftTerms(xs: seq<real>, ys: seq<real>, l: Line, m: Line)
    requires |xs| == |ys|
    ensures var rl, rm, gs := Residuals(xs, ys, l), Residuals(xs, ys, m), Gaps(xs, l, m);
      var ds, di := 2.0 * (l.slope - m.slope), 2.0 * (l.intercept - m.intercept);
      forall i :: 0 <= i < |xs| ==>
        Products(rm, rm)[i] == Products(rl, rl)[i] + Scale(ds, Products(xs, rl))[i] + Scale(di, rl)[i] + Products(gs, gs)[i]
  {
    var rl, rm, gs := Residuals(xs, ys, l), Residuals(xs, ys, m), Gaps(xs, l, m);
    var ds, di := 2.0 * (l.slope - m.slope), 2.0 * (l.intercept - m.intercept);
    forall i | 0 <= i < |xs|
      ensures Products(rm, rm)[i] == Products(rl, rl)[i] + Scale(ds, Products(xs, rl))[i]
        + Scale(di, rl)[i] + Products(gs, gs)[i]
    {
      ShiftTerm(ys[i], xs[i], l, m);
    }
  }

  lemma SquaresNonNegative(xs: seq<real>)
    ensures forall i :: 0 <= i < |xs| ==> Products(xs, xs)[i] >= 0.0
  {
    forall i | 0 <= i < |xs| ensures Products(xs, xs)[i] >= 0.0 {
      if xs[i] < 0.0 {
        assert xs[i] * xs[i] == (-xs[i]) * (-xs[i]);
      }
    }
  }

  /** The fitted line is a least-squares line: no line has a smaller squared error. */
  lemma FitIsLeastSquares(xs: seq<real>, ys: seq<real>, m: Line)
    requires |xs| == |ys| && Spread(xs) > 0.0
    ensures SquaredError(xs, ys, FitPoints(xs, ys)) <= SquaredError(xs, ys, m)
  {
    var f := FitPoints(xs, ys);
    FitNormalEquations(xs, ys);
    SquaredErrorShift(xs, ys, f, m);
    SquaresNonNegative(Gaps(xs, f, m));
    SumNonNegative(Products(Gaps(xs, f, m), Gaps(xs, f, m)));
  }

  lemma SquareZero(e: real)
    requires e * e == 0.0
    ensures e == 0.0
  {
    if e != 0.0 {
      ProductZero(e, e);
    }
  }

  /** The squared error is never negative, and is zero exactly when the line passes through every point. */
  lemma SquaredErrorZero(xs: seq<real>, ys: seq<real>, l: Line)
    requires |xs| == |ys|
    ensures SquaredError(xs, ys, l) >= 0.0
    ensures SquaredError(xs, ys, l) == 0.0 <==> forall i :: 0 <= i < |ys| ==> At(l, xs[i]) == ys[i]
  {
    var rs := Residuals(xs, ys, l);
    SquaresNonNegative(rs);
    SumNonNegative(Products(rs, rs));
    if SquaredError(xs, ys, l) == 0.0 {
      forall i | 0 <= i < |ys| ensures At(l, xs[i]) == ys[i] {
        assert Products(rs, rs)[i] == 0.0;
        SquareZero(rs[i]);
      }
    }
  }

  /** The points all lie on `l`. */
  predicate OnLine(xs: seq<real>, ys: seq<real>, l: Line)
    requires |xs| == |ys|
  {
    forall i :: 0 <= i < |ys| ==> ys[i] == At(l, xs[i])
  }

  /**
   * On collinear training data the fit is exact: it recovers the very line the
   * monthly totals lie on, and so reproduces every one of them.
   */
  lemma FitExactOnLine(ys: seq<real>, l: Line)
    requires |ys| >= 2 && OnLine(Indices(|ys|), ys, l)
    ensures Fit(ys) == l
    ensures OnLine(Indices(|ys|), ys, Fit(ys))
  {
    var xs := Indices(|ys|);
    IndicesSpread(|ys|);
    var f := FitPoints(xs, ys);
    SquaredErrorZero(xs, ys, l);
    FitIsLeastSquares(xs, ys, l);
    SquaredErrorZero(xs, ys, f);
    assert At(f, 0.0) == ys[0] == At(l, 0.0);
    assert At(f, 1.0) == ys[1] == At(l, 1.0);
  }

  // ---------------------------------------------------------------------------
  // Split, error and forecast
  // ---------------------------------------------------------------------------

  /**
   * `train_test_split(X, y, test_size=0.2, shuffle=False)`: the test part is the
   * last ceil(0.2 * n) points, the training part the prefix before it.
   */
  function Split(series: seq<real>): (parts: (seq<real>, seq<real>))
    ensures parts.0 + parts.1 == series
    ensures 5 * (|parts.1| - 1) < |series| <= 5 * |parts.1|
    ensures |series| >= 3 ==> |parts.0| >= 2 && |parts.1| >= 1
  {
    var testSize := (|series| + 4) / 5;
    (series[..|series| - testSize], series[|series| - testSize..])
  }

  function Abs(x: real): real {
    if x < 0.0 then -x else x
  }

  /** The absolute errors |actual[i] - predicted[i]|, point by point. */
  function AbsErrors(actual: seq<real>, predicted: seq<real>): (errors: seq<real>)
    requires |actual| == |predicted|
    ensures |errors| == |actual|
    ensures forall i :: 0 <= i < |actual| ==> errors[i] == Abs(actual[i] - predicted[i])
  {
    seq(|actual|, i requires 0 <= i < |actual| => Abs(actual[i] - predicted[i]))
  }

  /** `mean_absolute_error(actual, predicted)`: the mean of the absolute errors. */
  function MeanAbsoluteError(actual: seq<real>, predicted: seq<real>): (mae: real)
    requires |actual| == |predicted| > 0
    ensures mae >= 0.0
    ensures mae == 0.0 <==> actual == predicted
    ensures mae * (|actual| as real) == Sum(AbsErrors(actual, predicted))
  {
    var errors := AbsErrors(actual, predicted);
    SumNonNegative(errors);
    assert Sum(errors) == 0.0 <==> actual == predicted by {
      if Sum(errors) == 0.0 {
        forall i | 0 <= i < |actual| ensures actual[i] == predicted[i] {
          assert errors[i] == 0.0;
        }
      }
      if actual == predicted {
        forall i | 0 <= i < |actual| ensures errors[i] == 0.0 {
          assert actual[i] - predicted[i] == 0.0;
        }
      }
    }
    Sum(errors) / (|actual| as real)
  }

  /** The line's predictions on the suffix from index `t` match the suffix iff it passes through those points. */
  lemma HeldOutMatch(series: seq<real>, t: nat, line: Line)
    requires t <= |series|
    ensures var predicted := seq(|series| - t, j requires 0 <= j < |series| - t => At(line, (t + j) as real));
      series[t..] == predicted <==> forall j :: t <= j < |series| ==> At(line, j as real) == series[j]
  {
    var test := series[t..];
    var predicted := seq(|series| - t, j requires 0 <= j < |series| - t => At(line, (t + j) as real));
    if forall j :: t <= j < |series| ==> At(line, j as real) == series[j] {
      forall j | 0 <= j < |test| ensures test[j] == predicted[j] {
        assert series[t + j] == At(line, (t + j) as real);
      }
    }
    if test == predicted {
      forall j | t <= j < |series| ensures At(line, j as real) == series[j] {
        assert predicted[j - t] == test[j - t];
      }
    }
  }

  /** The fitted line, its error on the held-out months, and the next month's prediction. */
  datatype Forecast = Forecast(line: Line, mae: real, prediction: real)

  /**
   * The forecast block of ml/finance_model.py:78-90 over the monthly expense
   * totals `series` (indexed 0 .. n-1): nothing unless n > 2; otherwise the
   * line fitted on the training prefix, its mean absolute error on the test
   * suffix, and its unclamped value at index n.
   */
  function ForecastSeries(series: seq<real>): (r: Option<Forecast>)
    ensures r.Some? <==> |series| > 2
    ensures r.Some? ==> r.value.line == Fit(Split(series).0)
    ensures r.Some? ==> r.value.prediction == At(r.value.line, |series| as real)
    ensures r.Some? ==> r.value.mae >= 0.0
    ensures r.Some? ==> (r.value.mae == 0.0 <==>
      forall j :: |Split(series).0| <= j < |series| ==> At(r.value.line, j as real) == series[j])
  {
    if |series| <= 2 then None
    else
      var (train, test) := Split(series);
      var line := Fit(train);
      var predicted := seq(|test|, j requires 0 <= j < |test| => At(line, (|train| + j) as real));
      var mae := MeanAbsoluteError(test, predicted);
      HeldOutMatch(series, |train|, line);
      Some(Forecast(line, mae, At(line, |series| as real)))
  }
}

=== FILE: grouping.dfy ===
/**
 * pandas' `groupby(key)[value].sum()` over string keys: one total per
 * distinct key, keys in ascending order (the default `sort=True`).
 */
module Grouping {
  import opened Text
  import opened Sums

  /** One (key, value) pair: a row's group label and the amount it contributes. */
  datatype Entry = Entry(key: string, value: real)

  function Values(es: seq<Entry>): (vs: seq<real>)
    ensures |vs| == |es| && forall i :: 0 <= i < |es| ==> vs[i] == es[i].value
  {
    seq(|es|, i requires 0 <= i < |es| => es[i].value)
  }

  /** The sum of all values. */
  function Total(es: seq<Entry>): real {
    Sum(Values(es))
  }

  lemma TotalAppend(es: seq<Entry>, e: Entry)
    ensures Total(es + [e]) == Total(es) + e.value
  {
    assert Values(es + [e])[..|es|] == Values(es);
  }

  lemma TotalConcat(a: seq<Entry>, b: seq<Entry>)
    ensures Total(a + b) == Total(a) + Total(b)
  {
    assert Values(a + b) == Values(a) + Values(b);
    SumConcat(Values(a), Values(b));
  }

  /** The sum of the values labelled `k`. */
  function KeyTotal(es: seq<Entry>, k: string): real {
    if |es| == 0 then 0.0
    else KeyTotal(es[..|es| - 1], k) + (if es[|es| - 1].key == k then es[|es| - 1].value else 0.0)
  }

  /** The distinct keys that occur. */
  function KeySet(es: seq<Entry>): set<string> {
    set i | 0 <= i < |es| :: es[i].key
  }

  /** The keys of two lists together are the keys of each. */
  lemma KeySetConcat(a: seq<Entry>, b: seq<Entry>)
    ensures KeySet(a + b) == KeySet(a) + KeySet(b)
  {
    var ab := a + b;
    forall x | x in KeySet(ab) ensures x in KeySet(a) + KeySet(b) {
      var i :| 0 <= i < |ab| && ab[i].key == x;
      if i >= |a| {
        assert b[i - |a|].key == x;
      }
    }
    forall x | x in KeySet(a) + KeySet(b) ensures x in KeySet(ab) {
      if x in KeySet(a) {
        var i :| 0 <= i < |a| && a[i].key == x;
        assert ab[i].key == x;
      } else {
        var i :| 0 <= i < |b| && b[i].key == x;
        assert ab[|a| + i].key == x;
      }
    }
  }

  /** A key that never occurs totals zero: pandas' `fill_value=0`. */
  lemma {:induction false} KeyTotalAbsent(es: seq<Entry>, k: string)
    requires k !in KeySet(es)
    ensures KeyTotal(es, k) == 0.0
  {
    if |es| > 0 {
      assert KeySet(es[..|es| - 1]) <= KeySet(es) by {
        forall x | x in KeySet(es[..|es| - 1]) ensures x in KeySet(es) {
          var i :| 0 <= i < |es| - 1 && es[..|es| - 1][i].key == x;
          assert es[i].key == x;
        }
      }
      KeyTotalAbsent(es[..|es| - 1], k);
    }
  }

  /** Strictly ascending in Python's string order, hence free of repeats. */
  predicate Ascending(ks: seq<string>) {
    forall i, j :: 0 <= i < j < |ks| ==> StrLess(ks[i], ks[j])
  }

  lemma AscendingDistinct(ks: seq<string>, i: int, j: int)
    requires Ascending(ks) && 0 <= i < |ks| && 0 <= j < |ks| && i != j
    ensures ks[i] != ks[j]
  {
    if i < j { StrLessIrreflexive(ks[i]); } else { StrLessIrreflexive(ks[j]); }
  }

  /** Inserts `k` into an ascending list of keys, unless it is already there. */
  function InsertKey(ks: seq<string>, k: string): (r: seq<string>)
    requires Ascending(ks)
    ensures Ascending(r)
    ensures forall x :: x in r <==> x in ks || x == k
  {
    if |ks| == 0 then [k]
    else if ks[0] == k then ks
    else if StrLess(k, ks[0]) then
      assert forall j :: 0 <= j < |ks| ==> StrLess(k, ks[j]) by {
        forall j | 0 <= j < |ks| ensures StrLess(k, ks[j]) {
          if j > 0 { StrLessTransitive(k, ks[0], ks[j]); }
        }
      }
      [k] + ks
    else
      var rest := InsertKey(ks[1..], k);
      StrLessTotal(k, ks[0]);
      assert forall x :: x in rest ==> StrLess(ks[0], x) by {
        forall x | x in rest ensures StrLess(ks[0], x) {
          if x != k {
            var j :| 0 <= j < |ks[1..]| && ks[1..][j] == x;
            assert ks[j + 1] == x;
          }
        }
      }
      [ks[0]] + rest
  }

  /** The distinct keys of `es` in ascending order: the index of a `groupby` result. */
  function SortedKeys(es: seq<Entry>): (ks: seq<string>)
    ensures Ascending(ks)
    ensures forall k :: k in ks <==> k in KeySet(es)
  {
    if |es| == 0 then []
    else
      var init := es[..|es| - 1];
      assert KeySet(es) == KeySet(init) + {es[|es| - 1].key} by {
        forall x | x in KeySet(es) ensures x in KeySet(init) + {es[|es| - 1].key} {
          var i :| 0 <= i < |es| && es[i].key == x;
          if i < |es| - 1 { assert init[i].key == x; }
        }
        forall x | x in KeySet(init) ensures x in KeySet(es) {
          var i :| 0 <= i < |init| && init[i].key == x;
          assert es[i].key == x;
        }
      }
      InsertKey(SortedKeys(init), es[|es| - 1].key)
  }

  /** The total of each key in `ks`, in the order of `ks`. */
  function Totals(ks: seq<string>, es: seq<Entry>): (ts: seq<real>)
    ensures |ts| == |ks| && forall i :: 0 <= i < |ks| ==> ts[i] == KeyTotal(es, ks[i])
  {
    seq(|ks|, i requires 0 <= i < |ks| => KeyTotal(es, ks[i]))
  }

  /** Adding one entry adds its value to the total of its key, if that key is listed. */
  lemma {:induction false} TotalsAppend(ks: seq<string>, es: seq<Entry>, e: Entry)
    requires Ascending(ks)
    ensures Sum(Totals(ks, es + [e])) == Sum(Totals(ks, es)) + (if e.key in ks then e.value else 0.0)
  {
    if |ks| > 0 {
      var init := ks[..|ks| - 1];
      assert Ascending(init);
      TotalsAppend(init, es, e);
      assert Totals(ks, es + [e])[..|init|] == Totals(init, es + [e]);
      assert Totals(ks, es)[..|init|] == Totals(init, es);
      assert (es + [e])[..|es|] == es;
      if e.key == ks[|ks| - 1] {
        if e.key in init {
          var j :| 0 <= j < |init| && init[j] == e.key;
          AscendingDistinct(ks, j, |ks| - 1);
        }
      }
    }
  }

  lemma {:induction false} TotalsEmpty(ks: seq<string>)
    ensures Sum(Totals(ks, [])) == 0.0
  {
    if |ks| > 0 {
      assert Totals(ks, [])[..|ks| - 1] == Totals(ks[..|ks| - 1], []);
      TotalsEmpty(ks[..|ks| - 1]);
    }
  }

  /**
   * Conservation: when `ks` lists every key of `es` once, the per-key totals
   * add up to the total of all entries; nothing is dropped or counted twice.
   */
  lemma {:induction false} TotalsConserve(ks: seq<string>, es: seq<Entry>)
    requires Ascending(ks)
    requires forall k :: k in KeySet(es) ==> k in ks
    ensures Sum(Totals(ks, es)) == Total(es)
  {
    if |es| == 0 {
      TotalsEmpty(ks);
    } else {
      var init, e := es[..|es| - 1], es[|es| - 1];
      assert es == init + [e];
      assert e.key in KeySet(es);
      forall k | k in KeySet(init) ensures k in ks {
        var i :| 0 <= i < |init| && init[i].key == k;
        assert es[i].key == k;
      }
      TotalsConserve(ks, init);
      TotalsAppend(ks, init, e);
      TotalAppend(init, e);
    }
  }

  /**
   * `groupby(key)[value].sum()`: one entry per distinct key, in ascending key
   * order, carrying the sum of that key's values.
   */
  function GroupSum(es: seq<Entry>): (gs: seq<Entry>)
    ensures Ascending(Keys(gs))
    ensures forall k :: k in KeySet(gs) <==> k in KeySet(es)
    ensures forall i :: 0 <= i < |gs| ==> gs[i].value == KeyTotal(es, gs[i].key)
    ensures Total(gs) == Total(es)
  {
    var ks := SortedKeys(es);
    var gs := seq(|ks|, i requires 0 <= i < |ks| => Entry(ks[i], KeyTotal(es, ks[i])));
    assert Keys(gs) == ks;
    assert Values(gs) == Totals(ks, es);
    TotalsConserve(ks, es);
    assert forall k :: k in KeySet(gs) <==> k in ks by {
      forall k | k in ks ensures k in KeySet(gs) {
        var i :| 0 <= i < |ks| && ks[i] == k;
        assert gs[i].key == k;
      }
    }
    gs
  }

  function Keys(es: seq<Entry>): (ks: seq<string>)
    ensures |ks| == |es| && forall i :: 0 <= i < |es| ==> ks[i] == es[i].key
  {
    seq(|es|, i requires 0 <= i < |es| => es[i].key)
  }
}

=== FILE: months.dfy ===
/**
 * Calendar months and their `"YYYY-MM"` labels, the strings pandas produces
 * from `date.dt.to_period('M').astype(str)` (ml/finance_model.py:42).
 */
module Months {
  import opened Text

  datatype YearMonth = YearMonth(year: int, month: int)

  /** A calendar month whose year has at most four digits (pandas timestamps stay well inside). */
  type Month = ym: YearMonth | 0 <= ym.year <= 9999 && 1 <= ym.month <= 12
    witness YearMonth(2000, 1)

  /** Chronological order of months. */
  predicate Before(a: Month, b: Month) {
    a.year < b.year || (a.year == b.year && a.month < b.month)
  }

  function Pow10(w: nat): (p: nat)
    ensures p >= 1
  {
    if w == 0 then 1 else 10 * Pow10(w - 1)
  }

  function DigitChar(d: nat): char
    requires d < 10
  {
    ('0' as int + d) as char
  }

  /** The decimal digits of `x`, zero-padded to exactly `w` characters. */
  function Digits(x: nat, w: nat): (s: string)
    requires x < Pow10(w)
    ensures |s| == w
  {
    if w == 0 then [] else Digits(x / 10, w - 1) + [DigitChar(x % 10)]
  }

  /** The period label of a month, `"YYYY-MM"`. */
  function Key(m: Month): (k: string)
    ensures |k| == 7 && k[4] == '-'
  {
    Digits(m.year, 4) + "-" + Digits(m.month, 2)
  }

  /** Different numbers of the same width have different digit strings. */
  lemma {:induction false} DigitsInjective(x: nat, y: nat, w: nat)
    requires x < Pow10(w) && y < Pow10(w)
    ensures Digits(x, w) == Digits(y, w) ==> x == y
  {
    if w > 0 && Digits(x, w) == Digits(y, w) {
      var px, py := Digits(x / 10, w - 1), Digits(y / 10, w - 1);
      assert Digits(x, w)[..w - 1] == px && Digits(y, w)[..w - 1] == py;
      DigitsInjective(x / 10, y / 10, w - 1);
      assert Digits(x, w)[w - 1] == DigitChar(x % 10);
      assert Digits(y, w)[w - 1] == DigitChar(y % 10);
    }
  }

  /** Zero-padded digit strings of one width compare as strings exactly as the numbers do. */
  lemma {:induction false} DigitsOrder(x: nat, y: nat, w: nat)
    requires x < Pow10(w) && y < Pow10(w)
    ensures StrLess(Digits(x, w), Digits(y, w)) <==> x < y
  {
    if w == 0 {
    } else {
      var px, py := Digits(x / 10, w - 1), Digits(y / 10, w - 1);
      var cx, cy := [DigitChar(x % 10)], [DigitChar(y % 10)];
      StrLessConcat(px, cx, py, cy);
      DigitsOrder(x / 10, y / 10, w - 1);
      DigitsInjective(x / 10, y / 10, w - 1);
      if x / 10 == y / 10 {
        assert StrLess(cx, cy) <==> x % 10 < y % 10;
      }
    }
  }

  /** Sorting `"YYYY-MM"` labels as strings sorts the months chronologically. */
  lemma KeyOrder(a: Month, b: Month)
    ensures StrLess(Key(a), Key(b)) <==> Before(a, b)
  {
    var ya, yb := Digits(a.year, 4), Digits(b.year, 4);
    var ma, mb := Digits(a.month, 2), Digits(b.month, 2);
    assert Key(a) == ya + ("-" + ma) && Key(b) == yb + ("-" + mb);
    StrLessConcat(ya, "-" + ma, yb, "-" + mb);
    StrLessConcat("-", ma, "-", mb);
    DigitsOrder(a.year, b.year, 4);
    DigitsInjective(a.year, b.year, 4);
    DigitsOrder(a.month, b.month, 2);
  }

  /** Two months share a label only if they are the same month. */
  lemma KeyInjective(a: Month, b: Month)
    ensures Key(a) == Key(b) ==> a == b
  {
    if Key(a) == Key(b) {
      assert Key(a)[..4] == Digits(a.year, 4) && Key(b)[..4] == Digits(b.year, 4);
      assert Key(a)[5..] == Digits(a.month, 2) && Key(b)[5..] == Digits(b.month, 2);
      DigitsInjective(a.year, b.year, 4);
      DigitsInjective(a.month, b.month, 2);
    }
  }
}

=== FILE: pipeline.dfy ===
/**
 * `generate_finance_graphs` of ml/finance_model.py as one pure function:
 * load the frame, normalise its column names, then its rows into records,
 * then build the month-by-type table, the expense ranking by category, the
 * monthly expense trend and, when the trend has more than two months, the
 * forecast.
 *
 * The charts are the function's only output, so `Analyse` returns what each
 * chart is drawn from; the entry point itself only ever reports success.
 * Drawing is modelled only where it can fail: pandas refuses a bar chart with
 * no numeric column (line 51) and a pie with a negative slice (line 66).
 */
module Pipeline {
  import opened Wrappers
  import opened Sums
  import opened Months
  import opened Grouping
  import opened Records
  import opened Aggregation
  import opened Forecasting

  /**
   * What the charts are drawn from: the monthly income/expense bars, the
   * category pie (absent when there are no expenses), the expense trend and
   * the forecast (absent with two months or fewer).
   */
  datatype Report = Report(
    table: Table,
    ranking: Option<seq<Entry>>,
    trend: seq<TrendPoint>,
    forecast: Option<Forecast>)

  /** The pie and the trend are both skipped exactly when there is no expense record (lines 63 and 74). */
  lemma {:induction false} RankingIffTrend(rs: seq<Record>)
    ensures CategoryRanking(rs).None? <==> |ExpenseTrend(rs)| == 0
  {
    TrendEmptyIff(rs);
  }

  /** Some slice of the pie is negative. */
  predicate HasNegative(ranking: seq<Entry>) {
    exists i :: 0 <= i < |ranking| && ranking[i].value < 0.0
  }

  /** The table has no type column exactly when no record has a type. */
  lemma BarsEmptyIff(rs: seq<Record>)
    ensures |MonthlyTable(rs).kinds| == 0 <==> forall r :: r in rs ==> r.kind.None?
  {
    var t := MonthlyTable(rs);
    if |t.kinds| > 0 {
      assert t.kinds[0] in t.kinds;
    }
    if r :| r in rs && r.kind.Some? {
      assert r.kind.value in t.kinds;
    }
  }

  /** A negative slice is the total of some expense category. */
  lemma NegativeSliceCategory(rs: seq<Record>, i: nat)
    requires CategoryRanking(rs).Some? && i < |CategoryRanking(rs).value|
    ensures exists r :: r in rs && r.kind == Some("expense") && r.category == Some(CategoryRanking(rs).value[i].key)
    ensures CategoryRanking(rs).value[i].value
         == SumOf(Where(Expenses(rs), CategoryColumn, CategoryRanking(rs).value[i].key))
  {
    var ranking := CategoryRanking(rs).value;
    assert ranking[i] in ranking;
    assert exists r :: r in rs && r.kind == Some("expense") && r.category == Some(ranking[i].key) by {
      RankingCategories(rs);
    }
    assert ranking[i].value == SumOf(Where(Expenses(rs), CategoryColumn, ranking[i].key)) by {
      RankingValues(rs);
    }
  }

  /** Every expense category has a slice holding its total. */
  lemma CategorySlice(rs: seq<Record>, r: Record)
    requires CategoryRanking(rs).Some?
    requires r in rs && r.kind == Some("expense") && r.category.Some?
    ensures exists i :: (0 <= i < |CategoryRanking(rs).value| && CategoryRanking(rs).value[i].key == r.category.value
      && CategoryRanking(rs).value[i].value == SumOf(Where(Expenses(rs), CategoryColumn, r.category.value)))
  {
    var ranking := CategoryRanking(rs).value;
    assert exists e :: e in ranking && e.key == r.category.value by {
      RankingCategories(rs);
    }
    var e :| e in ranking && e.key == r.category.value;
    var i :| 0 <= i < |ranking| && ranking[i] == e;
    NegativeSliceCategory(rs, i);
  }

  /** A slice is negative exactly when the expenses of some category total below zero. */
  lemma NegativeSliceIff(rs: seq<Record>)
    requires CategoryRanking(rs).Some?
    ensures HasNegative(CategoryRanking(rs).value) <==>
      exists r :: r in rs && r.kind == Some("expense") && r.category.Some?
        && SumOf(Where(Expenses(rs), CategoryColumn, r.category.value)) < 0.0
  {
    var ranking := CategoryRanking(rs).value;
    if HasNegative(ranking) {
      var i :| 0 <= i < |ranking| && ranking[i].value < 0.0;
      NegativeSliceCategory(rs, i);
      var r :| r in rs && r.kind == Some("expense") && r.category == Some(ranking[i].key);
      assert r.category.Some?;
    }
    if r :| (r in rs && r.kind == Some("expense") && r.category.Some?
             && SumOf(Where(Expenses(rs), CategoryColumn, r.category.value)) < 0.0) {
      CategorySlice(rs, r);
    }
  }

  /**
   * Records with no negative amount never give a negative slice; app.py only
   * stores positive amounts (app.py:147).
   */
  lemma NoNegativeSlice(rs: seq<Record>)
    requires CategoryRanking(rs).Some?
    requires forall r :: r in rs ==> AmountOf(r) >= 0.0
    ensures !HasNegative(CategoryRanking(rs).value)
  {
    NegativeSliceIff(rs);
    forall r | r in rs && r.kind == Some("expense") && r.category.Some?
      ensures SumOf(Where(Expenses(rs), CategoryColumn, r.category.value)) >= 0.0
    {
      SumOfNonNegative(Where(Expenses(rs), CategoryColumn, r.category.value));
    }
  }

  /**
   * Lines 49-90 on the normalised records: the bar chart fails when no record
   * has a type, then the pie fails on a negative slice; otherwise the report,
   * whose pie exists iff the trend is non-empty, whose forecast exists iff the
   * trend has more than two months, and whose forecast extends the line
   * fitted to the trend's training prefix to the month after the last.
   */
  function Draw(rs: seq<Record>): (r: Result<Report, Error>)
    ensures r == Failure(NoNumericData) <==> forall x :: x in rs ==> x.kind.None?
    ensures r == Failure(NegativeSlice) <==>
      && (exists x :: x in rs && x.kind.Some?)
      && (exists x :: x in rs && x.kind == Some("expense") && x.category.Some?
            && SumOf(Where(Expenses(rs), CategoryColumn, x.category.value)) < 0.0)
    ensures r.Failure? ==> r.error == NoNumericData || r.error == NegativeSlice
    ensures r.Success? ==> r.value.table == MonthlyTable(rs) && r.value.ranking == CategoryRanking(rs)
    ensures r.Success? ==> r.value.trend == ExpenseTrend(rs)
    ensures r.Success? ==> r.value.forecast == ForecastSeries(Series(r.value.trend))
    ensures r.Success? ==> (r.value.ranking.None? <==> |r.value.trend| == 0)
    ensures r.Success? ==> (r.value.forecast.Some? <==> |r.value.trend| > 2)
    ensures r.Success? && r.value.forecast.Some? ==>
      r.value.forecast.value.prediction == At(r.value.forecast.value.line, |r.value.trend| as real)
    ensures r.Success? ==> Sum(Series(r.value.trend)) == SumOf(Expenses(rs))
  {
    BarsEmptyIff(rs);
    var table := MonthlyTable(rs);
    var ranking := CategoryRanking(rs);
    if |table.kinds| == 0 then Failure(NoNumericData)
    else
      assert ranking.Some? ==> (HasNegative(ranking.value) <==>
        exists x :: x in rs && x.kind == Some("expense") && x.category.Some?
          && SumOf(Where(Expenses(rs), CategoryColumn, x.category.value)) < 0.0) by {
        if ranking.Some? {
          NegativeSliceIff(rs);
        }
      }
      if ranking.Some? && HasNegative(ranking.value) then Failure(NegativeSlice)
      else
        assert ranking.None? ==> forall x :: x in rs ==> x.kind != Some("expense");
        var trend := ExpenseTrend(rs);
        RankingIffTrend(rs);
        TrendTotal(rs);
        Success(Report(table, ranking, trend, ForecastSeries(Series(trend))))
  }

  /**
   * Records that all have a type and no negative amount are always drawn,
   * as long as there is at least one.
   */
  lemma DrawSucceeds(rs: seq<Record>)
    requires |rs| > 0 && forall r :: r in rs ==> r.kind.Some? && AmountOf(r) >= 0.0
    ensures Draw(rs).Success?
  {
    assert rs[0] in rs;
    if CategoryRanking(rs).Some? {
      NoNegativeSlice(rs);
    }
  }

  /** One typed record of a non-negative amount is drawn. */
  lemma SingleDraws(r: Record)
    requires r.kind.Some? && AmountOf(r) >= 0.0
    ensures Draw([r]).Success?
  {
    DrawSucceeds([r]);
  }

  /**
   * Lines 29-90 with the type defaulting to "expense": a loading or
   * normalising error, else a chart error, else the report.
   */
  function Analyse(df: Option<Frame>, csv: Option<Frame>, now: Month): (r: Result<Report, Error>)
    ensures df.None? && csv.None? ==> r == Failure(MissingInput)
    ensures Load(df, csv).Success? && Normalise(Rename(Load(df, csv).value), now).Failure? ==>
      r == Failure(Normalise(Rename(Load(df, csv).value), now).error)
    ensures Load(df, csv).Success? && Normalise(Rename(Load(df, csv).value), now).Success? ==>
      r == Draw(Normalise(Rename(Load(df, csv).value), now).value)
  {
    match Load(df, csv)
    case Failure(e) => Failure(e)
    case Success(frame) =>
      match Normalise(Rename(frame), now)
      case Failure(e) => Failure(e)
      case Success(rs) => Draw(rs)
  }

  /**
   * The entry point (lines 29-106): `True` whenever the analysis goes through,
   * and the same error otherwise. The error and the prediction stay inside;
   * the summary that would return them comes after the `return True`.
   */
  function GenerateFinanceGraphs(df: Option<Frame>, csv: Option<Frame>, now: Month): (r: Result<bool, Error>)
    ensures r.Success? ==> r.value
    ensures r.Success? <==> Analyse(df, csv, now).Success?
    ensures r.Failure? ==> r.error == Analyse(df, csv, now).error
    ensures df.None? && csv.None? ==> r == Failure(MissingInput)
  {
    match Analyse(df, csv, now)
    case Failure(e) => Failure(e)
    case Success(_) => Success(true)
  }

  /**
   * A frame whose dated rows all have non-negative amounts and a type cell
   * (or no type column at all) is reported on whenever it normalises and has
   * at least one dated row.
   */
  lemma ChartsDrawn(df: Option<Frame>, csv: Option<Frame>, now: Month)
    requires Load(df, csv).Success? && Normalise(Rename(Load(df, csv).value), now).Success?
    requires var rs := Normalise(Rename(Load(df, csv).value), now).value;
      |rs| > 0 && forall r :: r in rs ==> r.kind.Some? && AmountOf(r) >= 0.0
    ensures GenerateFinanceGraphs(df, csv, now) == Success(true)
  {
    var rs := Normalise(Rename(Load(df, csv).value), now).value;
    DrawSucceeds(rs);
    GenerateOf(df, csv, now, rs);
  }

  /** The entry point succeeds when the records normalise and are drawn. */
  lemma GenerateOf(df: Option<Frame>, csv: Option<Frame>, now: Month, rs: seq<Record>)
    requires Load(df, csv).Success? && Normalise(Rename(Load(df, csv).value), now) == Success(rs)
    requires Draw(rs).Success?
    ensures GenerateFinanceGraphs(df, csv, now) == Success(true)
  {
  }

  /** As written, a normalising error is the entry point's error. */
  lemma AsWrittenFails(df: Option<Frame>, csv: Option<Frame>, now: Month)
    requires Load(df, csv).Success? && NormaliseAsWritten(Rename(Load(df, csv).value), now).Failure?
    ensures GenerateAsWritten(df, csv, now) == Failure(NormaliseAsWritten(Rename(Load(df, csv).value), now).error)
  {
  }

  /**
   * The entry point as written, with `df.get('type', 'expense').str` failing
   * on a frame that has no type column.
   */
  function GenerateAsWritten(df: Option<Frame>, csv: Option<Frame>, now: Month): (r: Result<bool, Error>)
    ensures r.Success? ==> r.value && Load(df, csv).Success? && HasColumn(Rename(Load(df, csv).value), "type")
    ensures Load(df, csv).Success? && HasColumn(Rename(Load(df, csv).value), "type") ==> r == GenerateFinanceGraphs(df, csv, now)
  {
    match Load(df, csv)
    case Failure(e) => Failure(e)
    case Success(frame) =>
      match NormaliseAsWritten(Rename(frame), now)
      case Failure(e) => Failure(e)
      case Success(rs) =>
        match Draw(rs)
        case Failure(e) => Failure(e)
        case Success(_) => Success(true)
  }

  /**
   * A frame of dates and amounts only is reported on by the intended pipeline
   * and rejected by the code as written.
   */
  lemma GenerateDiverges(now: Month)
    ensures GenerateFinanceGraphs(Some(DateAmountFrame()), None, now) == Success(true)
    ensures GenerateAsWritten(Some(DateAmountFrame()), None, now) == Failure(NoTypeAccessor)
  {
    var f := DateAmountFrame();
    var rs := [Record(YearMonth(2024, 1), Some(250.0), Some("expense"), Some("Other"))];
    assert Rename(f) == f by { DateAmountRenamed(); }
    assert Normalise(f, now) == Success(rs) by { DateAmountNormalised(now); }
    assert NormaliseAsWritten(f, now) == Failure(NoTypeAccessor) by { TypeDefaultWitness(now); }
    assert Draw(rs).Success? by { SingleDraws(rs[0]); }
    assert Load(Some(f), None) == Success(f);
    GenerateOf(Some(f), None, now, rs);
    AsWrittenFails(Some(f), None, now);
  }
}

=== FILE: records.dfy ===
/**
 * The input frame of ml/finance_model.py and its normalisation into records
 * (lines 29-42): header names stripped and lower-cased, the date resolved
 * from `date`, else `created_at`, else the current time, undated rows
 * dropped, amounts read as numbers, the type lower-cased and the category
 * resolved from `category`, else `title`, else "Other".
 *
 * A frame is modelled column by column: a row carries a cell for every column
 * the pipeline can read, and a cell only counts when the header has that
 * column. Cells arrive already parsed (dates as months, amounts as numbers).
 */
module Records {
  import opened Wrappers
  import opened Text
  import opened Months

  /** An amount cell: a number, a missing value (NaN), or text `float()` rejects. */
  datatype AmountCell = Number(x: real) | Blank | Malformed

  /**
   * One row's cells; `None` is a missing value (NaN, or NaT for a date that
   * failed to parse).
   */
  datatype RawRow = RawRow(
    date: Option<Month>,
    createdAt: Option<Month>,
    amount: AmountCell,
    kind: Option<string>,
    category: Option<string>,
    title: Option<string>)

  /** A data frame: its column names as given, and its rows. */
  datatype Frame = Frame(header: seq<string>, rows: seq<RawRow>)

  /**
   * A normalised row: its month, its amount (`None` for NaN, which sums skip),
   * its lower-cased type and its category.
   */
  datatype Record = Record(month: Month, amount: Option<real>, kind: Option<string>, category: Option<string>)

  datatype Error =
    | MissingInput          // neither a frame nor a CSV path (line 31)
    | MissingAmountColumn   // `df['amount']` on a frame without that column (line 39)
    | MalformedAmount       // `astype(float)` on a cell that is not a number (line 39)
    | NoTypeAccessor        // `'expense'.str` when there is no type column (line 40)
    | NoNumericData         // the bar chart of a table with no type column (line 51)
    | NegativeSlice         // the pie chart of a negative category total (line 66)

  /**
   * Lines 29-32: the frame if given, else the table read from the CSV path,
   * and an error when there is neither.
   */
  function Load(df: Option<Frame>, csv: Option<Frame>): (r: Result<Frame, Error>)
    ensures r.Failure? <==> df.None? && csv.None?
    ensures r.Failure? ==> r.error == MissingInput
    ensures df.Some? ==> r == Success(df.value)
    ensures df.None? && csv.Some? ==> r == Success(csv.value)
  {
    match df
    case Some(f) => Success(f)
    case None =>
      match csv
      case Some(f) => Success(f)
      case None => Failure(MissingInput)
  }

  /** Line 34: the frame with every column name stripped and lower-cased. */
  function Rename(f: Frame): (g: Frame)
    ensures g.rows == f.rows && |g.header| == |f.header|
    ensures forall i :: 0 <= i < |g.header| ==> Trimmed(g.header[i]) && IsLower(g.header[i])
  {
    Frame(seq(|f.header|, i requires 0 <= i < |f.header| => StripLower(f.header[i])), f.rows)
  }

  /** A renamed frame has a column exactly when some original name normalises to it. */
  lemma RenameNames(f: Frame, name: string)
    ensures HasColumn(Rename(f), name) <==> exists i :: 0 <= i < |f.header| && StripLower(f.header[i]) == name
  {
    var h := Rename(f).header;
    if i :| 0 <= i < |f.header| && StripLower(f.header[i]) == name {
      assert h[i] == name;
    }
    if name in h {
      var i :| 0 <= i < |h| && h[i] == name;
      assert StripLower(f.header[i]) == name;
    }
  }

  /** A frame whose names are already stripped and lower-case is left as it is. */
  lemma RenameFixed(f: Frame)
    requires forall i :: 0 <= i < |f.header| ==> Trimmed(f.header[i]) && IsLower(f.header[i])
    ensures Rename(f) == f
  {
    forall i | 0 <= i < |f.header| ensures Rename(f).header[i] == f.header[i] {
      StripLowerFixed(f.header[i]);
    }
  }

  /** Renaming an already renamed frame changes nothing. */
  lemma RenameIdempotent(f: Frame)
    ensures Rename(Rename(f)) == Rename(f)
  {
    RenameFixed(Rename(f));
  }

  /**
   * The frame has the column `name`; the lines after 34 only ever see a
   * renamed frame, so its names are compared as they stand.
   */
  predicate HasColumn(f: Frame, name: string) {
    name in f.header
  }

  /** Line 36: the row's date, from `date`, else `created_at`, else the time `now` of the call. */
  function RowDate(f: Frame, row: RawRow, now: Month): (d: Option<Month>)
    ensures d.None? ==> HasColumn(f, "date") || HasColumn(f, "created_at")
    ensures HasColumn(f, "date") ==> d == row.date
    ensures !HasColumn(f, "date") && HasColumn(f, "created_at") ==> d == row.createdAt
    ensures !HasColumn(f, "date") && !HasColumn(f, "created_at") ==> d == Some(now)
  {
    if HasColumn(f, "date") then row.date
    else if HasColumn(f, "created_at") then row.createdAt
    else Some(now)
  }

  /** Line 38: the rows that have a date, in their original order. */
  function Dated(f: Frame, rows: seq<RawRow>, now: Month): (kept: seq<RawRow>)
    ensures |kept| <= |rows|
    ensures forall i :: 0 <= i < |kept| ==> RowDate(f, kept[i], now).Some?
    ensures forall row :: row in kept <==> row in rows && RowDate(f, row, now).Some?
  {
    if |rows| == 0 then []
    else
      var init := Dated(f, rows[..|rows| - 1], now);
      var last := rows[|rows| - 1];
      assert rows == rows[..|rows| - 1] + [last];
      if RowDate(f, last, now).Some? then init + [last] else init
  }

  /** A single row is kept exactly when it has a date. */
  lemma DatedSingle(f: Frame, row: RawRow, now: Month)
    ensures Dated(f, [row], now) == if RowDate(f, row, now).Some? then [row] else []
  {
    assert [row][..0] == [];
  }

  /**
   * Filtering a concatenation filters each part: no dated row is dropped,
   * duplicated or moved.
   */
  lemma {:induction false} DatedConcat(f: Frame, a: seq<RawRow>, b: seq<RawRow>, now: Month)
    ensures Dated(f, a + b, now) == Dated(f, a, now) + Dated(f, b, now)
  {
    if |b| == 0 {
      assert a + b == a;
    } else {
      var init, last := b[..|b| - 1], b[|b| - 1];
      DatedConcat(f, a, init, now);
      assert (a + b)[..|a + b| - 1] == a + init;
      assert (a + b)[|a + b| - 1] == last;
    }
  }

  /** Line 39 on a cell that parsed: a number, or NaN for a blank. */
  function RowAmount(row: RawRow): Option<real>
    requires !row.amount.Malformed?
  {
    match row.amount
    case Number(x) => Some(x)
    case Blank => None
  }

  /**
   * Line 40 as intended: the lower-cased type cell, and "expense" for every row
   * when the frame has no type column.
   */
  function RowKind(f: Frame, row: RawRow): (k: Option<string>)
    ensures k.Some? ==> IsLower(k.value)
    ensures !HasColumn(f, "type") ==> k == Some("expense")
    ensures HasColumn(f, "type") ==> (k.Some? <==> row.kind.Some?)
    ensures HasColumn(f, "type") && row.kind.Some? ==> k.value == Lower(row.kind.value)
  {
    if HasColumn(f, "type") then
      match row.kind
      case Some(s) => LowerIsLower(s); Some(Lower(s))
      case None => None
    else
      assert IsLower("expense");
      Some("expense")
  }

  /** Line 41: the category cell, else the title cell, else "Other". */
  function RowCategory(f: Frame, row: RawRow): (c: Option<string>)
    ensures c.None? ==> HasColumn(f, "category") || HasColumn(f, "title")
    ensures !HasColumn(f, "category") && !HasColumn(f, "title") ==> c == Some("Other")
  {
    if HasColumn(f, "category") then row.category
    else if HasColumn(f, "title") then row.title
    else Some("Other")
  }

  function ToRecord(f: Frame, row: RawRow, now: Month): Record
    requires RowDate(f, row, now).Some? && !row.amount.Malformed?
  {
    Record(RowDate(f, row, now).value, RowAmount(row), RowKind(f, row), RowCategory(f, row))
  }

  /** No row that survives the date filter has an amount `float()` rejects. */
  predicate AmountsParse(f: Frame, now: Month) {
    forall row :: row in f.rows && RowDate(f, row, now).Some? ==> !row.amount.Malformed?
  }

  /** No row of `rows` has an amount `float()` rejects. */
  predicate Parses(rows: seq<RawRow>) {
    forall i :: 0 <= i < |rows| ==> !rows[i].amount.Malformed?
  }

  /** The amounts of the whole frame parse exactly when those of its dated rows do. */
  lemma ParsesDated(f: Frame, now: Month)
    ensures Parses(Dated(f, f.rows, now)) <==> AmountsParse(f, now)
  {
    var kept := Dated(f, f.rows, now);
    if Parses(kept) {
      forall row | row in f.rows && RowDate(f, row, now).Some? ensures !row.amount.Malformed? {
        var i :| 0 <= i < |kept| && kept[i] == row;
      }
    }
    if AmountsParse(f, now) {
      forall i | 0 <= i < |kept| ensures !kept[i].amount.Malformed? {
        assert kept[i] in kept;
      }
    }
  }

  /**
   * Lines 35-42, on a renamed frame, with the type defaulting to "expense": a missing amount column
   * and a malformed amount on a dated row are errors; otherwise one record per
   * dated row, in order.
   */
  function Normalise(f: Frame, now: Month): (r: Result<seq<Record>, Error>)
    ensures r.Success? <==> HasColumn(f, "amount") && AmountsParse(f, now)
    ensures r.Failure? ==> r.error == (if HasColumn(f, "amount") then MalformedAmount else MissingAmountColumn)
    ensures r.Success? ==> |r.value| == |Dated(f, f.rows, now)|
  {
    if !HasColumn(f, "amount") then Failure(MissingAmountColumn)
    else
      var kept := Dated(f, f.rows, now);
      ParsesDated(f, now);
      if !Parses(kept) then Failure(MalformedAmount)
      else Success(seq(|kept|, i requires 0 <= i < |kept| => ToRecord(f, kept[i], now)))
  }

  /** The i-th record is the i-th dated row, resolved. */
  lemma NormaliseAt(f: Frame, now: Month, i: nat)
    requires Normalise(f, now).Success? && i < |Normalise(f, now).value|
    ensures Normalise(f, now).value[i] == ToRecord(f, Dated(f, f.rows, now)[i], now)
  {
  }

  /**
   * Every normalised type is lower-case, and with no type column every record
   * is an expense.
   */
  lemma NormalisedKinds(f: Frame, now: Month)
    requires Normalise(f, now).Success?
    ensures forall rec :: rec in Normalise(f, now).value && rec.kind.Some? ==> IsLower(rec.kind.value)
    ensures !HasColumn(f, "type") ==> forall rec :: rec in Normalise(f, now).value ==> rec.kind == Some("expense")
  {
  }

  /** Every dated row yields a record. */
  lemma NormaliseCovers(f: Frame, now: Month, row: RawRow)
    requires Normalise(f, now).Success?
    requires row in f.rows && RowDate(f, row, now).Some?
    ensures !row.amount.Malformed? && ToRecord(f, row, now) in Normalise(f, now).value
  {
    var kept := Dated(f, f.rows, now);
    var i :| 0 <= i < |kept| && kept[i] == row;
    NormaliseAt(f, now, i);
  }

  /** Every record comes from a dated row. */
  lemma NormaliseSource(f: Frame, now: Month, rec: Record)
    requires Normalise(f, now).Success? && rec in Normalise(f, now).value
    ensures exists row :: row in f.rows && RowDate(f, row, now).Some? && !row.amount.Malformed? && rec == ToRecord(f, row, now)
  {
    var kept := Dated(f, f.rows, now);
    var i :| 0 <= i < |Normalise(f, now).value| && Normalise(f, now).value[i] == rec;
    NormaliseAt(f, now, i);
    assert kept[i] in kept;
  }

  /**
   * The records are exactly the dated rows, each resolved: every dated row
   * yields a record and every record comes from a dated row.
   */
  lemma NormaliseKeepsDated(f: Frame, now: Month)
    requires Normalise(f, now).Success?
    ensures forall row :: row in f.rows && RowDate(f, row, now).Some? ==> ToRecord(f, row, now) in Normalise(f, now).value
    ensures forall rec :: rec in Normalise(f, now).value ==>
      exists row :: row in f.rows && RowDate(f, row, now).Some? && !row.amount.Malformed? && rec == ToRecord(f, row, now)
  {
    forall row | row in f.rows && RowDate(f, row, now).Some? ensures ToRecord(f, row, now) in Normalise(f, now).value {
      NormaliseCovers(f, now, row);
    }
    forall rec | rec in Normalise(f, now).value
      ensures exists row :: row in f.rows && RowDate(f, row, now).Some? && !row.amount.Malformed? && rec == ToRecord(f, row, now)
    {
      NormaliseSource(f, now, rec);
    }
  }

  /**
   * Lines 36 and 41 resolve in a fixed order: a record's month comes from
   * `date`, else `created_at`, else `now`, and its category from `category`,
   * else `title`, else the literal "Other".
   */
  lemma ResolutionOrder(f: Frame, row: RawRow, now: Month)
    requires RowDate(f, row, now).Some? && !row.amount.Malformed?
    ensures HasColumn(f, "date") ==> ToRecord(f, row, now).month == row.date.value
    ensures !HasColumn(f, "date") && HasColumn(f, "created_at") ==> ToRecord(f, row, now).month == row.createdAt.value
    ensures !HasColumn(f, "date") && !HasColumn(f, "created_at") ==> ToRecord(f, row, now).month == now
    ensures HasColumn(f, "category") ==> ToRecord(f, row, now).category == row.category
    ensures !HasColumn(f, "category") && HasColumn(f, "title") ==> ToRecord(f, row, now).category == row.title
    ensures !HasColumn(f, "category") && !HasColumn(f, "title") ==> ToRecord(f, row, now).category == Some("Other")
  {
  }

  /** A type cell spelt "Expense" or "EXPENSE" is read as "expense" (lines 40 and 62). */
  lemma ExpenseSpellings(f: Frame, row: RawRow)
    requires HasColumn(f, "type")
    requires row.kind == Some("Expense") || row.kind == Some("EXPENSE")
    ensures RowKind(f, row) == Some("expense")
  {
    ExpenseLower();
  }

  lemma ExpenseLower()
    ensures Lower("Expense") == "expense" && Lower("EXPENSE") == "expense"
  {
    assert forall i :: 0 <= i < 7 ==> Lower("Expense")[i] == "expense"[i];
    assert forall i :: 0 <= i < 7 ==> Lower("EXPENSE")[i] == "expense"[i];
  }

  /**
   * Line 40 as written: `df.get('type', 'expense')` yields the plain string
   * 'expense' when there is no type column, and a string has no `.str`
   * accessor, so the call fails there instead of defaulting.
   */
  function NormaliseAsWritten(f: Frame, now: Month): (r: Result<seq<Record>, Error>)
    ensures r.Success? ==> HasColumn(f, "type")
    ensures HasColumn(f, "type") ==> r == Normalise(f, now)
  {
    var r := Normalise(f, now);
    if r.Failure? || HasColumn(f, "type") then r else Failure(NoTypeAccessor)
  }

  /**
   * The as-written normalisation rejects every frame without a type column
   * that the intended one accepts.
   */
  lemma TypeDefaultDiverges(f: Frame, now: Month)
    requires !HasColumn(f, "type") && Normalise(f, now).Success?
    ensures NormaliseAsWritten(f, now) == Failure(NoTypeAccessor)
    ensures forall rec :: rec in Normalise(f, now).value ==> rec.kind == Some("expense")
  {
    NormalisedKinds(f, now);
  }

  /** A frame with columns `date` and `amount` and one row of 250.0 in January 2024. */
  function DateAmountFrame(): Frame {
    Frame(["date", "amount"], [RawRow(Some(YearMonth(2024, 1)), None, Number(250.0), None, None, None)])
  }

  /** The frame above is left as it is by renaming. */
  lemma DateAmountRenamed()
    ensures Rename(DateAmountFrame()) == DateAmountFrame()
  {
    var h := DateAmountFrame().header;
    assert Trimmed(h[0]) && IsLower(h[0]) && Trimmed(h[1]) && IsLower(h[1]);
    RenameFixed(DateAmountFrame());
  }

  /** The frame above has a date and an amount column, and no other column the pipeline reads. */
  lemma DateAmountColumns()
    ensures HasColumn(DateAmountFrame(), "date") && HasColumn(DateAmountFrame(), "amount")
    ensures !HasColumn(DateAmountFrame(), "type") && !HasColumn(DateAmountFrame(), "category")
    ensures !HasColumn(DateAmountFrame(), "title")
  {
    var cs := DateAmountFrame().header;
    assert "type" !in cs && "category" !in cs && "title" !in cs by {
      assert "type"[0] != "date"[0] && "type"[0] != "amount"[0];
      assert "category"[0] != "date"[0] && "category"[0] != "amount"[0];
      assert "title"[0] != "date"[0] && "title"[0] != "amount"[0];
    }
  }

  /** The frame above keeps its one row, read as an expense of 250.0 in "Other". */
  lemma DateAmountRecord(now: Month)
    ensures Dated(DateAmountFrame(), DateAmountFrame().rows, now) == DateAmountFrame().rows
    ensures ToRecord(DateAmountFrame(), DateAmountFrame().rows[0], now)
         == Record(YearMonth(2024, 1), Some(250.0), Some("expense"), Some("Other"))
  {
    DateAmountColumns();
    assert DateAmountFrame().rows[..0] == [];
  }

  /** A frame with one dated row normalises to that row's record. */
  lemma NormaliseSingle(f: Frame, now: Month)
    requires HasColumn(f, "amount") && Parses(Dated(f, f.rows, now)) && |Dated(f, f.rows, now)| == 1
    ensures Normalise(f, now) == Success([ToRecord(f, Dated(f, f.rows, now)[0], now)])
  {
    assert Normalise(f, now).Success? by {
      ParsesDated(f, now);
    }
    var rs := Normalise(f, now).value;
    NormaliseAt(f, now, 0);
    assert rs == [rs[0]];
  }

  /**
   * The frame above is accepted by the intended normalisation and rejected by
   * the code as written.
   */
  lemma TypeDefaultWitness(now: Month)
    ensures Normalise(DateAmountFrame(), now).Success?
    ensures NormaliseAsWritten(DateAmountFrame(), now) == Failure(NoTypeAccessor)
  {
    var f := DateAmountFrame();
    DateAmountColumns();
    assert AmountsParse(f, now);
  }

  /** The intended normalisation reads the frame above as one expense of 250.0 in "Other". */
  lemma DateAmountNormalised(now: Month)
    ensures Normalise(DateAmountFrame(), now)
         == Success([Record(YearMonth(2024, 1), Some(250.0), Some("expense"), Some("Other"))])
  {
    var f := DateAmountFrame();
    DateAmountColumns();
    DateAmountRecord(now);
    assert Parses(f.rows);
    NormaliseSingle(f, now);
  }

}

=== FILE: sums.dfy ===
/**
 * Exact sums of real numbers, the model's stand-in for pandas' and numpy's
 * `sum()`, with the linearity facts the aggregation and the least-squares
 * proofs need.
 */
module Sums {

  /**
   * The sum of `xs`. It is a plain alias of `Accumulate`, so that a sum
   * appearing in a contract is one and the same term wherever it is used.
   */
  function Sum(xs: seq<real>): real {
    Accumulate(xs)
  }

  /** Adds `xs` up from the front, one element at a time. */
  function Accumulate(xs: seq<real>): real {
    if |xs| == 0 then 0.0 else Accumulate(xs[..|xs| - 1]) + xs[|xs| - 1]
  }

  /** Summing a concatenation is summing the parts. */
  lemma {:induction false} SumConcat(a: seq<real>, b: seq<real>)
    ensures Sum(a + b) == Sum(a) + Sum(b)
  {
    if |b| > 0 {
      assert (a + b)[..|a + b| - 1] == a + b[..|b| - 1];
      SumConcat(a, b[..|b| - 1]);
    } else {
      assert a + b == a;
    }
  }

  /** A sum of non-negative numbers is non-negative, and zero exactly when every term is. */
  lemma {:induction false} SumNonNegative(xs: seq<real>)
    requires forall i :: 0 <= i < |xs| ==> xs[i] >= 0.0
    ensures Sum(xs) >= 0.0
    ensures Sum(xs) == 0.0 <==> forall i :: 0 <= i < |xs| ==> xs[i] == 0.0
  {
    if |xs| > 0 {
      var init := xs[..|xs| - 1];
      SumNonNegative(init);
      if Sum(xs) == 0.0 {
        forall i | 0 <= i < |xs| ensures xs[i] == 0.0 {
          if i < |xs| - 1 {
            assert init[i] == xs[i];
          }
        }
      }
    }
  }

  /** `k` copies of `c`. */
  function Constant(k: nat, c: real): (cs: seq<real>)
    ensures |cs| == k && forall i :: 0 <= i < k ==> cs[i] == c
  {
    seq(k, i requires 0 <= i < k => c)
  }

  /** Every element multiplied by `p`. */
  function Scale(p: real, xs: seq<real>): (ss: seq<real>)
    ensures |ss| == |xs| && forall i :: 0 <= i < |xs| ==> ss[i] == p * xs[i]
  {
    seq(|xs|, i requires 0 <= i < |xs| => p * xs[i])
  }

  /** The element-wise product of two sequences of one length. */
  function Products(u: seq<real>, v: seq<real>): (ps: seq<real>)
    requires |u| == |v|
    ensures |ps| == |u| && forall i :: 0 <= i < |u| ==> ps[i] == u[i] * v[i]
  {
    seq(|u|, i requires 0 <= i < |u| => u[i] * v[i])
  }

  /** Summing an element-wise sum of four sequences is adding their sums. */
  lemma {:induction false} SumAdd(r: seq<real>, u: seq<real>, v: seq<real>, w: seq<real>, z: seq<real>)
    requires |r| == |u| == |v| == |w| == |z|
    requires forall i :: 0 <= i < |r| ==> r[i] == u[i] + v[i] + w[i] + z[i]
    ensures Sum(r) == Sum(u) + Sum(v) + Sum(w) + Sum(z)
  {
    if |r| > 0 {
      var n := |r| - 1;
      SumAdd(r[..n], u[..n], v[..n], w[..n], z[..n]);
    }
  }

  /** Scaling every element scales the sum. */
  lemma {:induction false} SumScale(p: real, xs: seq<real>)
    ensures Sum(Scale(p, xs)) == p * Sum(xs)
  {
    if |xs| > 0 {
      var n := |xs| - 1;
      assert forall i :: 0 <= i < n ==> Scale(p, xs)[i] == Scale(p, xs[..n])[i];
      assert Scale(p, xs)[..n] == Scale(p, xs[..n]);
      SumScale(p, xs[..n]);
      assert p * Sum(xs) == p * Sum(xs[..n]) + p * xs[n];
    }
  }

  lemma {:induction false} SumConstant(k: nat, c: real)
    ensures Sum(Constant(k, c)) == (k as real) * c
  {
    if k > 0 {
      assert Constant(k, c)[..k - 1] == Constant(k - 1, c);
      SumConstant(k - 1, c);
    }
  }
}

=== FILE: text.dfy ===
/**
 * Python's `str.strip()` and `str.lower()` and its ordering of strings,
 * as used on CSV headers and on form fields.
 */
module Text {

  /** The characters Python's `str.isspace()` accepts, which `strip()` removes. */
  predicate IsSpace(c: char) {
    || c == ' ' || c == '\t' || c == '\n' || c == '\r'
    || c == '\U{B}' || c == '\U{C}'
    || ('\U{1C}' <= c <= '\U{1F}')
    || c == '\U{85}' || c == '\U{A0}' || c == '\U{1680}'
    || ('\U{2000}' <= c <= '\U{200A}')
    || c == '\U{2028}' || c == '\U{2029}' || c == '\U{202F}' || c == '\U{205F}' || c == '\U{3000}'
  }

  /** True iff `s` neither starts nor ends with whitespace. */
  predicate Trimmed(s: string) {
    |s| > 0 ==> !IsSpace(s[0]) && !IsSpace(s[|s| - 1])
  }

  /** Removes leading whitespace: the result is the suffix of `s` after its leading spaces. */
  function StripLeft(s: string): (r: string)
    ensures |r| <= |s| && r == s[|s| - |r|..]
    ensures |r| > 0 ==> !IsSpace(r[0])
    ensures forall i :: 0 <= i < |s| - |r| ==> IsSpace(s[i])
  {
    if |s| > 0 && IsSpace(s[0]) then StripLeft(s[1..]) else s
  }

  /** Removes trailing whitespace: the result is the prefix of `s` before its trailing spaces. */
  function StripRight(s: string): (r: string)
    ensures |r| <= |s| && r == s[..|r|]
    ensures |r| > 0 ==> !IsSpace(r[|r| - 1])
    ensures forall i :: |r| <= i < |s| ==> IsSpace(s[i])
  {
    if |s| > 0 && IsSpace(s[|s| - 1]) then StripRight(s[..|s| - 1]) else s
  }

  /** `r` occurs in `s` at offset `i`, and all of `s` before and after it is whitespace. */
  predicate FramedBySpace(s: string, i: int, r: string) {
    && 0 <= i <= |s| - |r|
    && r == s[i..i + |r|]
    && (forall j :: 0 <= j < i ==> IsSpace(s[j]))
    && (forall j :: i + |r| <= j < |s| ==> IsSpace(s[j]))
  }

  /**
   * Python's `s.strip()`: the longest infix of `s` that starts and ends with a
   * non-space character; everything cut off on either side is whitespace.
   */
  function Strip(s: string): (r: string)
    ensures Trimmed(r)
    ensures |r| <= |s|
    ensures exists i :: FramedBySpace(s, i, r)
  {
    var l := StripLeft(s);
    var r := StripRight(l);
    StripFrame(s, l, r);
    r
  }

  /**
   * A suffix `l` of `s` after whitespace, and a prefix `r` of `l` before
   * whitespace, is framed by whitespace in `s`.
   */
  lemma StripFrame(s: string, l: string, r: string)
    requires |l| <= |s| && l == s[|s| - |l|..]
    requires forall j :: 0 <= j < |s| - |l| ==> IsSpace(s[j])
    requires |r| <= |l| && r == l[..|r|]
    requires forall j :: |r| <= j < |l| ==> IsSpace(l[j])
    ensures FramedBySpace(s, |s| - |l|, r)
  {
    var i := |s| - |l|;
    forall k | 0 <= k < |r| ensures r[k] == s[i + k] {
      assert r[k] == l[k] && l[k] == s[i + k];
    }
    assert r == s[i..i + |r|];
    forall j | i + |r| <= j < |s| ensures IsSpace(s[j]) {
      assert s[j] == l[j - i];
    }
  }

  /** A string that is already trimmed is left alone by `Strip`. */
  lemma {:induction false} StripTrimmed(s: string)
    requires Trimmed(s)
    ensures Strip(s) == s
  {
  }

  /** `strip()` is idempotent. */
  lemma StripIdempotent(s: string)
    ensures Strip(Strip(s)) == Strip(s)
  {
    StripTrimmed(Strip(s));
  }

  /** Python's `str.lower()` on one character, restricted to the ASCII letters. */
  function LowerChar(c: char): char {
    if 'A' <= c <= 'Z' then (c as int - 'A' as int + 'a' as int) as char else c
  }

  /** Python's `str.lower()`, character by character (ASCII letters only). */
  function Lower(s: string): (r: string)
    ensures |r| == |s|
    ensures forall i :: 0 <= i < |s| ==> r[i] == LowerChar(s[i])
  {
    seq(|s|, i requires 0 <= i < |s| => LowerChar(s[i]))
  }

  /** True iff `s` has no upper-case ASCII letter. */
  predicate IsLower(s: string) {
    forall i :: 0 <= i < |s| ==> !('A' <= s[i] <= 'Z')
  }

  /** `lower()` leaves no upper-case letter behind and is idempotent. */
  lemma LowerIsLower(s: string)
    ensures IsLower(Lower(s))
    ensures Lower(Lower(s)) == Lower(s)
  {
  }

  /**
   * `s.strip().lower()`: how the source normalises an e-mail address and a
   * column header. The result is trimmed and lower-case.
   */
  function StripLower(s: string): (r: string)
    ensures Trimmed(r) && IsLower(r)
    ensures |r| <= |s|
    ensures exists i :: LowerOfFramed(s, i, r)
  {
    var t := Strip(s);
    assert exists i :: LowerOfFramed(s, i, Lower(t)) by {
      var i :| FramedBySpace(s, i, t);
      LowerFramed(s, i, t);
    }
    LowerIsLower(t);
    assert Trimmed(Lower(t)) by {
      if |t| > 0 {
        LowerKeepsSpace(t[0]);
        LowerKeepsSpace(t[|t| - 1]);
      }
    }
    Lower(t)
  }

  /**
   * `r` is the lower-cased infix of `s` at offset `i`, and everything of `s`
   * outside that infix is whitespace.
   */
  predicate LowerOfFramed(s: string, i: int, r: string) {
    && 0 <= i <= |s| - |r|
    && (forall j :: 0 <= j < |r| ==> r[j] == LowerChar(s[i + j]))
    && (forall j :: 0 <= j < i ==> IsSpace(s[j]))
    && (forall j :: i + |r| <= j < |s| ==> IsSpace(s[j]))
  }

  /** Lower-casing a whitespace-framed infix gives the lower-cased infix. */
  lemma LowerFramed(s: string, i: int, t: string)
    requires FramedBySpace(s, i, t)
    ensures LowerOfFramed(s, i, Lower(t))
  {
    forall j | 0 <= j < |t| ensures Lower(t)[j] == LowerChar(s[i + j]) {
      assert t[j] == s[i + j];
    }
  }

  /** Lower-casing never turns a space into a non-space or back. */
  lemma LowerKeepsSpace(c: char)
    ensures IsSpace(LowerChar(c)) <==> IsSpace(c)
  {
  }

  /** A trimmed lower-case string is already normal. */
  lemma StripLowerFixed(s: string)
    requires Trimmed(s) && IsLower(s)
    ensures StripLower(s) == s
  {
    StripTrimmed(s);
    assert Lower(s) == s;
  }

  /** Normalising twice is the same as normalising once. */
  lemma StripLowerIdempotent(s: string)
    ensures StripLower(StripLower(s)) == StripLower(s)
  {
    StripLowerFixed(StripLower(s));
  }

  /** Python's `<` on strings: lexicographic by code point, a proper prefix first. */
  predicate StrLess(a: string, b: string) {
    if |a| == 0 then |b| > 0
    else if |b| == 0 then false
    else if a[0] != b[0] then a[0] < b[0]
    else StrLess(a[1..], b[1..])
  }

  lemma {:induction false} StrLessIrreflexive(a: string)
    ensures !StrLess(a, a)
  {
    if |a| > 0 {
      StrLessIrreflexive(a[1..]);
    }
  }

  lemma {:induction false} StrLessTransitive(a: string, b: string, c: string)
    requires StrLess(a, b) && StrLess(b, c)
    ensures StrLess(a, c)
  {
    if |a| > 0 && a[0] == b[0] && b[0] == c[0] {
      StrLessTransitive(a[1..], b[1..], c[1..]);
    }
  }

  /** Any two different strings are ordered one way or the other, never both. */
  lemma {:induction false} StrLessTotal(a: string, b: string)
    ensures a != b ==> StrLess(a, b) || StrLess(b, a)
    ensures !(StrLess(a, b) && StrLess(b, a))
  {
    if |a| > 0 && |b| > 0 && a[0] == b[0] {
      StrLessTotal(a[1..], b[1..]);
      if a[1..] == b[1..] {
        assert a == [a[0]] + a[1..] && b == [b[0]] + b[1..];
      }
    }
  }

  /**
   * Comparing two strings whose first `|p|` characters are `p` and `q` with
   * `|p| == |q|`: they are ordered as `p` and `q` are when those differ, and as
   * their tails are otherwise.
   */
  lemma {:induction false} StrLessConcat(p: string, s: string, q: string, t: string)
    requires |p| == |q|
    ensures p != q ==> (StrLess(p + s, q + t) <==> StrLess(p, q))
    ensures p == q ==> (StrLess(p + s, q + t) <==> StrLess(s, t))
  {
    if |p| > 0 {
      assert (p + s)[0] == p[0] && (q + t)[0] == q[0];
      assert (p + s)[1..] == p[1..] + s && (q + t)[1..] == q[1..] + t;
      StrLessConcat(p[1..], s, q[1..], t);
      if p[0] == q[0] && p[1..] == q[1..] {
        assert p == [p[0]] + p[1..] && q == [q[0]] + q[1..];
      }
    } else {
      assert p + s == s && q + t == t;
    }
  }
}

=== FILE: wrappers.dfy ===
/** Option and Result, the failure-carrying datatypes used throughout the model. */
module Wrappers {

  /** A value that may be absent: a missing form field, a blank cell, a skipped result. */
  datatype Option<+T> = None | Some(value: T) {

    /** The value, or `default` when there is none. */
    function GetOr(default: T): T {
      match this
      case Some(v) => v
      case None => default
    }
  }

  /** Either a computed value or the error the source would raise instead. */
  datatype Result<+R, +E> = Success(value: R) | Failure(error: E)
}
